=== FILE: README.md ===
# DiscordBot-TheIsle core, modelled in Dafny

This project models the core logic of a Discord bot that administers a game
server for The Isle.

**Population control** (`DinoRoster`):
- Per-species live counts come from the server's telemetry.
- A static caps table and a registry of temporary unlocks decide which species are playable.
- The roster string is pushed back to the server.
- ENABLED/DISABLED notices are diffed against the previous cycle.

**The RCON client** (`RconClient`, with `Utf8` for `str.encode()`):
- A command-name to byte-code table.
- The exact authorisation and command packet layouts.
- A cached `is_authorized` flag with a one-shot reconnect.
- Fixed error sentinels.

The socket is an oracle, `Link`. It says whether the TCP connect succeeds and, for each packet, whether `sendall` succeeded and what `recv` produced. Each operation returns the next client record, its value, and the packets written.

**The two log consumers:**
- The audit shipper (`CommandLogs`, duplicated as `LogMonitor`) keeps a string timestamp as its watermark.
- The pairing scanner (`PairingChats`) keeps a read offset. It completes the first pending pairing whose code appears in the chat.

**Small validators around them:**
- The `/unlock_specie` command (`UnlockSpecie`).
- The `/rcon` command gate and autocomplete (`RconSendCommand`).
- The paired-user check (`VerifyPaired`).
- The `/store_dino` eligibility gate (`StoreDino`).
- The `/restarts` time arithmetic (`Restarts`).

Shared string operations are in `Text`:
- Substring search, `split`/`join`, `strip`, ASCII case mapping.
- Code-point order, used for `<` and `<=`.
- `readlines` on a file opened in text mode, after translating "\r\n" and a lone "\r" to "\n".

Each of them carries its own contract. `Join(Split(s)) == s` holds for every non-empty separator. `Split(Join(parts)) == parts` holds for a one-character separator, at least one part, and no part containing the separator. `Concat(ReadLines(s)) == s` holds for every text. They also carry a transitivity and trichotomy argument for the order.

Where the code does not do what its own docstrings and tests say, the model follows the code:
- **First cycle.** The `notify_dino_changes` docstring promises messages "only if a specific dino was enabled or disabled". The code counts a species with no previous count as enabled. So on the first cycle every capped species over its cap is reported DISABLED, though nothing changed (`DinoRoster.FirstCycleReportsOverCap`).
- **Watermark.** The `get_last_processed_timestamp` docstring says the watermark is there "to prevent duplicates". The code stores the last dispatched timestamp in file order. It never falls below the value a pass started from (`CommandLogs.WatermarkAdvances`). However, an entry that precedes an older one in the file is dispatched again on the next pass (`CommandLogs.OutOfOrderRepost`). Because the stamp is saved before the notice is sent, a send that raises loses that notice for good (`CommandLogs.LostNotice`).
- **Timeout detection.** The roster and store callers test a reply for "No response received" to detect that no reply came. The client's timeout sentinel does not contain that text. A timed-out telemetry read therefore passes the test and counts as an empty server (`RconClient.TimeoutEscapesNoResponseCheck`, `DinoRoster.TimeoutCountsAsEmptyServer`).

## Model

| member | source | states |
|---|---|---|
| RconClient.TableCodesAscending | prcon.py:12-31 | the command codes increase strictly along the table |
| RconClient.CommandByteInjective | prcon.py:12-31 | two command names with the same code are the same name |
| RconClient.CommandByteNonZero | prcon.py:12-31 | no command code equals the 0x00 frame terminator |
| RconClient.ReadAuthPacket | prcon.py:61 | reading the auth packet back yields the UTF-8 password, and the bytes after it, when the password has no NUL |
| RconClient.ReadCommandPacket | prcon.py:99-100 | reading a command packet back yields its code and the UTF-8 payload, when the payload has no NUL |
| RconClient.NulPayloadIsCut | prcon.py:100 | a payload holding NUL is cut short at its first NUL by a reader of the frame |
| RconClient.CommandByte | prcon.py:91-99 | a name has no code iff the table does not list it; a code found is the one the table pairs with the name |
| RconClient.AuthPacket | prcon.py:61 | the packet is 0x01, the UTF-8 password and 0x00, two bytes longer than the password's encoding |
| RconClient.CommandPacket | prcon.py:99-100 | the packet is 0x02, the command code, the UTF-8 payload and 0x00, three bytes longer than the payload's encoding |
| RconClient.ReadPacket | prcon.py:81-88 | a received reply is returned as decoded; a timeout gives the timeout sentinel; any other error gives the receive-error prefix followed by the error's text |
| RconClient.SendPacket | prcon.py:74-79 | the connection is unchanged and the client stays authorised iff it was and `sendall` succeeded |
| RconClient.NewClient | prcon.py:33-39 | each falsy argument falls back on its environment variable; construction fails iff the port is falsy and the port variable is missing or unparsable; a new client has no socket and is not authorised |
| RconClient.ExplicitArgumentsWin | prcon.py:34-36 | non-empty explicit host, port and password are kept whatever the environment holds, and give a client with credentials |
| RconClient.EnvironmentOnlyCredentials | prcon.py:34-42 | built from the environment alone, the client has credentials iff host and password variables are set and non-empty and the port parses to a non-zero number |
| RconClient.TimeoutDistinctFromReceiveError | prcon.py:81-88 | the timeout sentinel never equals a receive-error sentinel |
| RconClient.TimeoutEscapesNoResponseCheck | prcon.py:86 | the timeout sentinel does not contain "No response received" |
| RconClient.Authorize | prcon.py:56-72 | an authorised client returns true and sends nothing; otherwise exactly the auth packet is sent and the client is authorised iff the reply contains "Accepted" |
| RconClient.AuthorizeIdempotent | prcon.py:57-58 | authorising after a successful authorisation sends nothing and succeeds |
| RconClient.Connect | prcon.py:41-54 | missing host, port or password fails with no socket made; otherwise a new socket is made; a refused TCP connect fails with nothing sent; success implies credentials, transport and an accepted auth (or an already-set flag) |
| RconClient.SendCommand | prcon.py:90-102 | an unknown name returns the unknown-command text and changes nothing; a reconnect happens iff socket or authorisation is missing; a failed reconnect returns the could-not-connect text; the command packet follows any auth packet; afterwards the flag equals the send result |
| RconClient.Close | prcon.py:104-112 | afterwards there is no socket and a well-formed client is not authorised |
| RconClient.ValidPreserved | prcon.py:41-112 | connect, send_command and close keep "authorised only with a socket" |
| RconClient.NoReauthorisationWhileAuthorised | prcon.py:94-101 | after a command that leaves the client authorised, the next command sends only its own packet |
| Utf8.EncodeChar | prcon.py:61 | a character encodes to 1 to 4 bytes, with a zero byte only for NUL and only high bytes in multi-byte forms |
| Utf8.DecodeEncodeChar | prcon.py:100 | decoding a character's UTF-8 bytes gives the character back |
| Utf8.Encode | prcon.py:100 | the encoding is at least as long as the text and holds a zero byte iff the text holds NUL |
| Utf8.EncodeAscii | prcon.py:61 | ASCII text encodes to its code points, one byte each |
| Text.IndexFrom | scripts/rcon/rcon_manage_dino_roster.py:61 | the result is the first occurrence at or after the start, or there is none |
| Text.JoinSplit | scripts/rcon/rcon_manage_dino_roster.py:66 | joining the pieces of a split with the separator gives the text back |
| Text.SplitJoin | scripts/rcon/rcon_manage_dino_roster.py:103 | splitting a one-character-separator join of separator-free pieces gives the pieces back |
| Text.SplitFirstPiece | scripts/ftp/ftp_get_command_logs.py:75-77 | the first piece is a separator-free prefix, the whole text iff there is no separator, and otherwise is followed by the separator |
| Text.ReadLines | scripts/ftp/ftp_get_command_logs.py:86 | the lines concatenate to the text and are non-empty; every line but the last ends in a newline, and no line holds a newline before its last character |
| Text.Universal | scripts/ftp/ftp_get_command_logs.py:85-86 | the text-mode translation leaves no carriage return and never lengthens the text |
| Text.UniversalBreak | scripts/ftp/ftp_get_command_logs.py:85-86 | a line break spelled "\r\n", "\r" or "\n" becomes one "\n" and the carriage-return-free text before it is kept |
| Text.UniversalCrFree | scripts/ftp/ftp_get_pairing_chats.py:27-29 | text without carriage returns is unchanged by the translation |
| Text.TrimStart | scripts/ftp/ftp_get_command_logs.py:52 | the result is a suffix whose first character is not whitespace (including U+001C to U+001F), and only whitespace was removed |
| Text.TrimEnd | scripts/ftp/ftp_get_command_logs.py:52 | the result is a prefix whose last character is not whitespace (including U+001C to U+001F), and only whitespace was removed |
| Text.LexLessTransitive | scripts/ftp/ftp_get_command_logs.py:98 | string `<` is transitive |
| Text.LexTrichotomy | scripts/ftp/ftp_get_command_logs.py:98 | two strings are equal or one is `<` the other |
| Text.LexLeqNotLess | scripts/ftp/ftp_get_command_logs.py:98 | `a <= b` iff not `b < a` |
| Text.CapitalizeIdempotent | commands/patreon/unlock_specie.py:14 | capitalising twice is capitalising once |
| DinoRoster.InTableIff | scripts/rcon/rcon_manage_dino_roster.py:17-35 | a name has a cap entry iff it is one of the table's species |
| DinoRoster.OnlineIdsFrom | scripts/rcon/rcon_manage_dino_roster.py:55 | every id found in the player list is 17 digits |
| DinoRoster.OnlineIdOccurs | scripts/rcon/rcon_manage_dino_roster.py:55 | every id found occurs in the player list text |
| DinoRoster.OnlineIdFound | scripts/rcon/rcon_manage_dino_roster.py:55 | every 17-digit run that starts the text or follows a non-digit is found |
| DinoRoster.Tally | scripts/rcon/rcon_manage_dino_roster.py:65-78 | the counter keeps its keys and adds to each table species the number of readings with that class, positive health and an online id |
| DinoRoster.CountReadings | scripts/rcon/rcon_manage_dino_roster.py:64-80 | counting from zero gives a census holding exactly the reference count for every table species |
| DinoRoster.GetDinoPopulation | scripts/rcon/rcon_manage_dino_roster.py:48-80 | the population is empty iff the connect fails, the reply is empty or it contains "No response received"; otherwise it is a census of the reference counts |
| DinoRoster.TimeoutCountsAsEmptyServer | scripts/rcon/rcon_manage_dino_roster.py:61-62 | a timed-out telemetry read passes the check and yields zero for every species |
| DinoRoster.Keep | scripts/rcon/rcon_manage_dino_roster.py:97-100 | the filter keeps exactly the accepted names, as a subsequence of its input |
| DinoRoster.EnabledDinos | scripts/rcon/rcon_manage_dino_roster.py:97-100 | the roster holds exactly the census species that are temp-unlocked, uncapped or within their cap, as a subsequence of the table |
| DinoRoster.EnabledIff | scripts/rcon/rcon_manage_dino_roster.py:97-100 | a species is in the roster iff temp-unlocked, uncapped or counted at most its cap; the roster follows table order |
| DinoRoster.NegativeAndZeroCaps | scripts/rcon/rcon_manage_dino_roster.py:18-31 | a cap of -1 is never enabled unless unlocked; a cap of 0 is enabled only at count 0 |
| DinoRoster.RosterStringRoundTrip | scripts/rcon/rcon_manage_dino_roster.py:103 | splitting the comma-joined roster gives the roster back |
| DinoRoster.ChangesOver | scripts/rcon/rcon_manage_dino_roster.py:128-142 | the change list holds an ENABLED or DISABLED entry for a capped species exactly when its previous and current counts straddle the cap |
| DinoRoster.Changes | scripts/rcon/rcon_manage_dino_roster.py:128-142 | every notice names a capped species, and no species is both ENABLED and DISABLED in one cycle |
| DinoRoster.ChangesIff | scripts/rcon/rcon_manage_dino_roster.py:128-142 | ENABLED iff previous exists above the cap and current is within it; DISABLED iff previous is absent or within and current above; uncapped species never appear |
| DinoRoster.FirstCycleReportsOverCap | scripts/rcon/rcon_manage_dino_roster.py:133 | with no previous state nothing is ENABLED and every over-cap capped species is DISABLED |
| DinoRoster.NoChangeNoNotice | scripts/rcon/rcon_manage_dino_roster.py:133-134 | diffing a census against itself reports nothing |
| DinoRoster.RosterCycle | scripts/rcon/rcon_manage_dino_roster.py:89-114 | an empty population changes nothing and pushes nothing; otherwise the roster is pushed when connected, at most one message is posted, only when there are changes, and the previous state becomes the counts |
| DinoRoster.SteadyCountsPostNothing | scripts/rcon/rcon_manage_dino_roster.py:112 | a second cycle on unchanged counts posts nothing |
| DinoRoster.UnlockDinoForTemp | scripts/rcon/rcon_manage_dino_roster.py:150-168 | a name outside the table after capitalisation changes nothing; otherwise it joins the registry and the pushed roster splits back into the unlock roster |
| DinoRoster.UnlockRosterIff | scripts/rcon/rcon_manage_dino_roster.py:160-163 | the unlock roster is the table species that are unlocked, uncapped or the new name |
| DinoRoster.DisableUnlockedDino | scripts/rcon/rcon_manage_dino_roster.py:174-186 | only that name leaves the registry, and one DISABLED notice is posted when the channel is found |
| CommandLogs.ReadWatermark | scripts/ftp/ftp_get_command_logs.py:48-53 | a missing file reads as ""; a read watermark has no surrounding whitespace |
| CommandLogs.SaveThenRead | scripts/ftp/ftp_get_command_logs.py:48-58 | reading back a saved timestamp gives that timestamp, for any timestamp that is already stripped, as every parsed one is (line 92) |
| CommandLogs.ExtractTargetPlayer | scripts/ftp/ftp_get_command_logs.py:68-78 | the target is the ", "-free prefix before the first ", ", or the whole text when there is none |
| CommandLogs.Notice | scripts/ftp/ftp_get_command_logs.py:104-107 | the notice is, in order, the wrench head, the admin, "** used **", the command, "** on **" and the extracted target followed by "**": every character is fixed by the entry |
| CommandLogs.NoticeLayoutUnique | scripts/ftp/ftp_get_command_logs.py:107 | the layout determines the message: two messages laid out from the same admin, command and target are equal |
| CommandLogs.DispatchAll | scripts/ftp/ftp_get_command_logs.py:88-109 | with no send raising, every entry newer than the watermark is saved in turn and posted when the channel exists, so the last one's stamp stays saved |
| CommandLogs.Dispatch | scripts/ftp/ftp_get_command_logs.py:88-112 | without a raising send, as above; when the send for a new entry raises, the entries before it are posted, its own stamp is saved, and nothing after it is handled |
| CommandLogs.ProcessNewLogs | scripts/ftp/ftp_get_command_logs.py:80-112 | an unreadable log changes nothing; otherwise the lines of the newline-translated text are dispatched against the watermark read at the start, up to a send that raises |
| CommandLogs.LostNotice | scripts/ftp/ftp_get_command_logs.py:101-112 | the entry whose send raised is newer than the old watermark but not newer than the saved one, so no later pass posts it |
| CommandLogs.FreshIff | scripts/ftp/ftp_get_command_logs.py:97-99 | an entry is dispatched iff some line parses to it and its timestamp is strictly greater than the watermark |
| CommandLogs.WatermarkAdvances | scripts/ftp/ftp_get_command_logs.py:101-102 | a pass that dispatches saves a timestamp strictly greater than the one it started from |
| CommandLogs.NothingAbove | scripts/ftp/ftp_get_command_logs.py:89-99 | when no matched line is newer than the watermark, nothing is dispatched |
| CommandLogs.LastHandledIsLatest | scripts/ftp/ftp_get_command_logs.py:101-102 | on entries in time order no entry is later than the last one dispatched |
| CommandLogs.SecondPassIdle | scripts/ftp/ftp_get_command_logs.py:98-102 | on entries in time order, a second pass over the same log dispatches nothing |
| CommandLogs.OutOfOrderRepost | scripts/ftp/ftp_get_command_logs.py:101-102 | a newer entry before an older one is dispatched again on the next pass |
| CommandLogs.CommandLogCycle | scripts/ftp/ftp_get_command_logs.py:114-125 | a failed download changes nothing; otherwise the downloaded log is processed, including a pass cut short by a raising send |
| LogMonitor.ExtractTargetPlayer | scripts/ftp/log_monitor.py:38-41 | the target is a ", "-free prefix of the details |
| LogMonitor.ExtractorsAgree | scripts/ftp/log_monitor.py:38-41 | both consumers extract the same target |
| LogMonitor.MonitorCycle | scripts/ftp/log_monitor.py:43-88 | a missing or empty download path, or an unreadable local log, changes nothing; otherwise the local log is processed as by the audit shipper, up to a send that raises |
| PairingChats.HexRun | scripts/ftp/ftp_get_pairing_chats.py:16 | the run is the longest stretch of hex or dash characters |
| PairingChats.PairCodeFrom | scripts/ftp/ftp_get_pairing_chats.py:16 | found iff the pattern matches somewhere; the code is taken at the leftmost match and runs over the whole hex-or-dash stretch after "FD-PAIR-" |
| PairingChats.PairCodeOccurs | scripts/ftp/ftp_get_pairing_chats.py:34-38 | the code found is spelled out in the line |
| PairingChats.SteamIdFrom | scripts/ftp/ftp_get_pairing_chats.py:17 | found iff a "[17 digits]:" match exists; the id is the 17 digits of the leftmost one |
| PairingChats.SteamIdOccurs | scripts/ftp/ftp_get_pairing_chats.py:35-39 | the id found is spelled out in the line inside its brackets and colon |
| PairingChats.Candidate | scripts/ftp/ftp_get_pairing_chats.py:33-37 | a line is a candidate iff it has the chat marker, a code and an id |
| PairingChats.Complete | scripts/ftp/ftp_get_pairing_chats.py:50-53 | the update sets that code's row to completed with the id and leaves other rows alone |
| PairingChats.Scan | scripts/ftp/ftp_get_pairing_chats.py:32-60 | nothing is found or changed iff no line completes; otherwise the first completing line's pairing is completed and nothing else |
| PairingChats.EndOffset | scripts/ftp/ftp_get_pairing_chats.py:28-30 | the offset after reading is the end of the file, never below the previous offset |
| PairingChats.ProcessNewLogs | scripts/ftp/ftp_get_pairing_chats.py:21-65 | when opening or decoding fails, the offset is kept and nothing is found or changed; otherwise the offset moves to the end even when the scan stops early, and the result is the reference scan of the new lines |
| PairingChats.PairingCycle | scripts/ftp/ftp_get_pairing_chats.py:74-85 | without a download, without growth past the offset, or when the new bytes do not decode, nothing happens and the offset stays; otherwise the new lines are scanned |
| PairingChats.FirstPendingWins | scripts/ftp/ftp_get_pairing_chats.py:32-58 | an earlier line's pending code is completed and a later user's code stays pending |
| PairingChats.OnlyAppendedLinesScanned | scripts/ftp/ftp_get_pairing_chats.py:28-30 | after reading to the end, only appended text is read next |
| UnlockSpecie.Unlock | commands/patreon/unlock_specie.py:13-30 | an unlocked name gets the ephemeral already-unlocked reply with no change or task; any other capitalised name is inserted, announced publicly and handed to one task |
| UnlockSpecie.CapitalisedFirst | commands/patreon/unlock_specie.py:14 | a name and its capitalised form behave alike |
| UnlockSpecie.TableSpeciesUnlockRoundTrip | commands/patreon/unlock_specie.py:17-27 | a table species goes through the command, the scheduled re-lock and the disable and leaves the registry as it found it |
| UnlockSpecie.UnknownNameStaysUnlocked | commands/patreon/unlock_specie.py:16-18 | a name outside the table stays in the registry and every later attempt is told it is already unlocked |
| RconSendCommand.CommandsHaveCodes | commands/admin/rcon_send_command.py:16-17 | every offered command has a code in the client's table |
| RconSendCommand.Autocomplete | commands/admin/rcon_send_command.py:21-26 | the choices are exactly the commands of the iteration order whose lower-case form contains the lower-cased input, never more than the order holds and without repeats when it has none |
| RconSendCommand.AutocompleteOverCommands | commands/admin/rcon_send_command.py:16-26 | over any iteration order of the command set, the choices are exactly the matching commands, each once |
| RconSendCommand.EmptyInputOffersAll | commands/admin/rcon_send_command.py:24-26 | an empty input offers every command, in iteration order |
| RconSendCommand.Rcon | commands/admin/rcon_send_command.py:30-50 | a message-requiring command with a blank message is refused with nothing sent; a failed connect gives the failure reply; after a connect the one reply is the server's response in a code block and the packets are the connect's then the send's; a public post, the announcement text around the message, appears iff the command is announce and the connect succeeded |
| RconSendCommand.ConnectedCommandGoesOutOnce | commands/admin/rcon_send_command.py:36-39 | after a successful connect the command packet with the message or "" follows the connect's packets |
| VerifyPaired.Verify | utils/discord/verify_paired.py:8-34 | no rows gives not-paired, a first row not completed gives not-completed, a completed first row gives its id, a datastore error gives its text; no error iff completed |
| VerifyPaired.FirstRowDecides | utils/discord/verify_paired.py:27 | rows after the first never change the verdict |
| VerifyPaired.IdXorError | utils/discord/verify_paired.py:24-34 | an id and an error never come back together |
| StoreDino.FetchDinoData | commands/storage/store_dino.py:23-45 | no record iff the connect fails, the reply is empty or holds the marker, or the pattern does not match; otherwise the record holds groups 3 to 6 and the requested id |
| StoreDino.StoreDinoFor | commands/storage/store_dino.py:47-110 | an unpaired user gets the error and no fetch; a failed fetch gives the fetching then the failure reply; a record under growth 0.75 or stamina 1.00 gives the fetching then the requirements reply; a row is inserted iff paired, fetched and eligible, and it is the record plus the Discord id |
| StoreDino.UnpairedStoresNothing | commands/storage/store_dino.py:53-59 | a user with no pairing rows is told so and nothing is fetched or stored |
| StoreDino.VoucherIsFirstId | commands/storage/store_dino.py:85-88 | the voucher shows the first returned row's id |
| Restarts.TomorrowAt | commands/other/restarts.py:13-14 | the instant falls on the next UTC day at the given hour |
| Restarts.RestartTimes | commands/other/restarts.py:10-18 | both instants are later than now and fall on the next day, at 17:00 and 05:00; they are 43200 s apart and multiples of 3600 |
| Restarts.SameDaySameTimes | commands/other/restarts.py:12-15 | the instants depend only on the day of now |

## Left out

- The sockets and the FTP transport (`pftp.py`, `ftp.py`, `scripts/ftp/ftp.py`, `scripts/ftp/setup_ftp.py`, `scripts/rcon/setup_rcon.py`, `download_log`) are I/O. The socket is the `Link` oracle, and a download is an `Option` of the file's text or path.
- `disconnect()`, which the roster and store callers invoke, is not defined on the client; only `close()` is. Connection release is treated as abstract: those callers take their RCON replies as given strings.
- Discord and the datastore are not modelled. Messages are output sequences. The pairing table is a map keyed by code, because codes come from a fresh UUID. Datastore exceptions in the pairing scanner are not modelled; a failing open or decode there is (the `decodes` flag).
- Regular expressions and `float` parsing are modelled as parameters:
  - the `getplayerdata` line readings (`Reading`);
  - the audit line pattern (`parse`);
  - the stats pattern (`stats`).
- Health, growth and stamina are reals, not IEEE floats.
- The player-list id search, the pair-code pattern and the Steam-id pattern are written out.
- DinoRoster.OnlineIdsFrom: `\d` is taken as the ASCII digits 0 to 9. Python's `\d` on text also matches other Unicode decimal digits, such as U+0661, so a run of 17 of those is an id there and not here. Steam ids are ASCII.
- `strip`, `lower`, `upper` and `capitalize` are modelled on ASCII characters only. `strip` removes the ASCII whitespace Python removes, U+001C to U+001F included. Python's non-ASCII whitespace (such as U+0085 or U+00A0) and its Unicode case tables are not modelled.
- File offsets in the pairing scanner count characters of the raw file. Python's text `seek`/`tell` use opaque byte positions, which are the same for ASCII logs. Newline translation ("\r\n" and a lone "\r" read as "\n") is applied to the text after the offset. A "\r\n" split by the offset is translated as two breaks.
- `read_packet` decodes with `errors='ignore'`. The model treats the received text as already decoded.
- The 4096-byte receive limit and the socket timeout value are not modelled.
- The sleeps, the infinite loops, the 120 s unlock timer, and the recursive re-entry of the roster loop from `disable_unlocked_dino` are not modelled. The concurrency on the shared registry, previous state and read offset is not modelled either. Each loop is modelled as one iteration.
- In the audit shipper, the two exceptions the `try` of `process_new_logs` catches are modelled: an unreadable log (`log` is None) and a raising send (`failLine`). A raising regular expression or watermark write is not: the pattern is a parameter and the write is taken to succeed.
- Other `try` blocks whose failures are modelled:
  - the client's connect, send, receive and close (a refused connect, a failed `sendall`, a timeout or receive error);
  - the pairing scanner's open and decode (`decodes`);
  - the `/store_dino` insert (`InsertResult`);
  - the paired-user lookup (a datastore error).
- Exceptions not modelled: datastore exceptions in the pairing scanner, exceptions escaping `get_pairing_chats`, and every exception inside the roster loop's `try` (rcon_manage_dino_roster.py:90-117).
- DinoRoster.RosterCycle: `HEALTH_PATTERN` accepts text such as "." or "1.2.3", on which `float()` raises. The roster loop's `try` then ends the cycle with nothing pushed, posted or saved. The model's `Reading` always carries a health value, so a cycle always completes.
- PairingChats.Scan: the datastore update is taken to return data, so a completed pairing always ends the scan. An update returning no rows, which lets the code carry on to later lines, is not modelled.
- RconSendCommand.Autocomplete: `COMMANDS` is a Python set, whose iteration order depends on string hashing. The order is a parameter of the model, and `AutocompleteOverCommands` holds for every order.
- RconClient.NewClient: `int(...)` is the parameter `parseInt`. A `None` host or password (no argument and no variable) is stored as "", which every later test treats like `None`. The `timeout` argument is not modelled.
- The manual command-line path of `store_dino` (printing instead of replying) is not modelled. Only the interaction path is.
- The ENABLED/DISABLED message layout is given as text (`DinoRoster.ChangeMessage`, `DinoRoster.DisableMessage`) with no separate property.
- StoreDino.StoreDinoFor: when a completed pairing has an empty Steam id, the code hands `None` to `send_message`. The model replies with an empty text.
- PairingChats.EndOffset: when the offset is past the end of a shrunk file, the offset is kept. In the code the size gate keeps such a file from being read at all.

=== FILE: command_logs.dfy ===
/**
 * The admin-command audit feed: the downloaded server log is read line by
 * line, each line the command pattern matches becomes an audit entry, and
 * entries newer than the stored timestamp watermark are posted as notices,
 * the watermark being rewritten as each one is handled.
 *
 * The regular expression is the parameter `parse`: it maps a line to the
 * entry its groups 1, 2, 4 and 5 spell (each stripped), or None when the
 * pattern does not match.
 */
module CommandLogs {
  import opened Wrappers
  import opened Text

  datatype AuditEntry = AuditEntry(timestamp: string, admin: string, command: string, details: string)

  /**
   * Every timestamp the parser yields is stripped, as the source's
   * `group(1).strip()` makes it: it neither starts nor ends with whitespace.
   */
  ghost predicate StrippedStamps(parse: string -> Option<AuditEntry>) {
    forall line :: parse(line).Some? ==> Unpadded(parse(line).value.timestamp)
  }

  /** `get_last_processed_timestamp`: the stored file's text, stripped, or "" when there is no file. */
  function ReadWatermark(stored: Option<string>): (w: string)
    ensures stored.None? ==> w == ""
    ensures |w| > 0 ==> !IsSpace(w[0]) && !IsSpace(w[|w| - 1])
  {
    match stored
    case None => ""
    case Some(text) => Strip(text)
  }

  /** Reading back a saved stamp gives the stamp: saving and reading are inverse on timestamps. */
  lemma SaveThenRead(t: string)
    requires Unpadded(t)
    ensures ReadWatermark(Some(t)) == t
  {
    StripUnpadded(t);
  }

  /**
   * `extract_target_player`: the text before the first ", ". Splitting always
   * yields at least one piece, so the "Unknown Player" fallback is never taken.
   */
  function ExtractTargetPlayer(details: string): (name: string)
    ensures !Contains(name, ", ")
    ensures |name| <= |details| && name == details[..|name|]
    ensures name == details <==> !Contains(details, ", ")
    ensures Contains(details, ", ") ==> OccursAt(details, ", ", |name|)
  {
    SplitFirstPiece(details, ", ");
    Split(details, ", ")[0]
  }

  const NoticeHead: string := "\U{1F6E0}\U{FE0F} **"

  /**
   * `m` spells, in order: the head, the admin, "** used **", the command,
   * "** on **", and the target in bold.
   */
  predicate NoticeLayout(m: string, admin: string, command: string, target: string) {
    var a := |NoticeHead| + |admin|;
    && |m| == a + |command| + |target| + 20
    && m[..|NoticeHead|] == NoticeHead
    && m[|NoticeHead|..a] == admin
    && m[a..a + 10] == "** used **"
    && m[a + 10..a + 10 + |command|] == command
    && m[a + 10 + |command|..|m| - |target| - 2] == "** on **"
    && m[|m| - |target| - 2..] == target + "**"
  }

  /** The channel message for one entry: admin, command and extracted target, each in bold. */
  function Notice(e: AuditEntry): (m: string)
    ensures |m| == |NoticeHead| + |e.admin| + |e.command| + |ExtractTargetPlayer(e.details)| + 20
    ensures NoticeLayout(m, e.admin, e.command, ExtractTargetPlayer(e.details))
  {
    var t := ExtractTargetPlayer(e.details);
    var p0 := NoticeHead + e.admin;
    var p1 := p0 + "** used **";
    var p2 := p1 + e.command;
    var p3 := p2 + "** on **";
    var m := p3 + (t + "**");
    assert m[..|p3|] == p3 && m[|p3|..] == t + "**";
    assert p3[..|p2|] == p2 && p3[|p2|..] == "** on **";
    assert p2[..|p1|] == p1 && p2[|p1|..] == e.command;
    assert p1[..|p0|] == p0 && p1[|p0|..] == "** used **";
    assert p0[..|NoticeHead|] == NoticeHead && p0[|NoticeHead|..] == e.admin;
    m
  }

  /** The layout leaves nothing free: two messages with the same parts are the same message. */
  lemma NoticeLayoutUnique(m1: string, m2: string, admin: string, command: string, target: string)
    requires NoticeLayout(m1, admin, command, target) && NoticeLayout(m2, admin, command, target)
    ensures m1 == m2
  {
    var a := |NoticeHead| + |admin|;
    var c := a + 10 + |command|;
    var d := |m1| - |target| - 2;
    forall i | 0 <= i < |m1|
      ensures m1[i] == m2[i]
    {
      if i < |NoticeHead| {
        assert m1[..|NoticeHead|][i] == m2[..|NoticeHead|][i];
      } else if i < a {
        assert m1[|NoticeHead|..a][i - |NoticeHead|] == m2[|NoticeHead|..a][i - |NoticeHead|];
      } else if i < a + 10 {
        assert m1[a..a + 10][i - a] == m2[a..a + 10][i - a];
      } else if i < c {
        assert m1[a + 10..c][i - a - 10] == m2[a + 10..c][i - a - 10];
      } else if i < d {
        assert m1[c..d][i - c] == m2[c..d][i - c];
      } else {
        assert m1[d..][i - d] == m2[d..][i - d];
      }
    }
  }

  /** The notices of `es`, one per entry, in order. */
  function Notices(es: seq<AuditEntry>): seq<string> {
    if |es| == 0 then [] else Notices(es[..|es| - 1]) + [Notice(es[|es| - 1])]
  }

  lemma NoticesSnoc(es: seq<AuditEntry>, e: AuditEntry)
    ensures Notices(es + [e]) == Notices(es) + [Notice(e)]
  {
    assert (es + [e])[..|es|] == es;
  }

  /** The entry of one line, if it has one strictly newer than `last`. */
  function Newer(line: string, parse: string -> Option<AuditEntry>, last: string): seq<AuditEntry> {
    match parse(line)
    case Some(e) => if LexLess(last, e.timestamp) then [e] else []
    case None => []
  }

  /** The source's test: a matched line is new unless its stamp is `<=` the watermark. */
  lemma NewerByTest(line: string, parse: string -> Option<AuditEntry>, last: string)
    ensures Newer(line, parse, last) ==
              if parse(line).Some? && !LexLeq(parse(line).value.timestamp, last) then [parse(line).value] else []
  {
    if parse(line).Some? {
      LexLeqNotLess(parse(line).value.timestamp, last);
    }
  }

  /** Reference definition: the entries of `lines` strictly newer than `last`, in file order. */
  function Fresh(lines: seq<string>, parse: string -> Option<AuditEntry>, last: string): seq<AuditEntry> {
    if |lines| == 0 then []
    else Fresh(lines[..|lines| - 1], parse, last) + Newer(lines[|lines| - 1], parse, last)
  }

  lemma FreshPrefix(lines: seq<string>, i: nat, parse: string -> Option<AuditEntry>, last: string)
    requires i < |lines|
    ensures Fresh(lines[..i + 1], parse, last) == Fresh(lines[..i], parse, last) + Newer(lines[i], parse, last)
  {
    assert lines[..i + 1][..i] == lines[..i];
  }

  /** The watermark file after a pass that handled `handled`: the last handled stamp, else untouched. */
  function Saved(stored: Option<string>, handled: seq<AuditEntry>): Option<string> {
    if |handled| == 0 then stored else Some(handled[|handled| - 1].timestamp)
  }

  /**
   * Whether the pass is cut short: the channel exists, and the line numbered
   * `failLine` holds a new entry whose send raises.
   */
  predicate SendFails(lines: seq<string>, parse: string -> Option<AuditEntry>, last: string,
                      channelFound: bool, failLine: Option<nat>) {
    && channelFound && failLine.Some? && failLine.value < |lines|
    && parse(lines[failLine.value]).Some? && Newer(lines[failLine.value], parse, last) != []
  }

  /** What one line adds to the handled entries, the saved stamp and the notices. */
  lemma DispatchStep(stored: Option<string>, lines: seq<string>, i: nat, parse: string -> Option<AuditEntry>, last: string)
    requires i < |lines|
    ensures var before, after := Fresh(lines[..i], parse, last), Fresh(lines[..i + 1], parse, last);
            if parse(lines[i]).Some? && !LexLeq(parse(lines[i]).value.timestamp, last) then
              && Newer(lines[i], parse, last) != []
              && Saved(stored, after) == Some(parse(lines[i]).value.timestamp)
              && Notices(after) == Notices(before) + [Notice(parse(lines[i]).value)]
            else
              Newer(lines[i], parse, last) == [] && after == before
  {
    FreshPrefix(lines, i, parse, last);
    NewerByTest(lines[i], parse, last);
    if parse(lines[i]).Some? && !LexLeq(parse(lines[i]).value.timestamp, last) {
      NoticesSnoc(Fresh(lines[..i], parse, last), parse(lines[i]).value);
    }
  }

  /**
   * The loop of `process_new_logs` over `lines` when no send raises: a
   * matched line newer than `last` is saved, then posted when the channel
   * exists.
   */
  method DispatchAll(stored: Option<string>, last: string, lines: seq<string>, parse: string -> Option<AuditEntry>,
                     channelFound: bool)
    returns (saved: Option<string>, posted: seq<string>)
    ensures saved == Saved(stored, Fresh(lines, parse, last))
    ensures posted == if channelFound then Notices(Fresh(lines, parse, last)) else []
  {
    saved := stored;
    posted := [];
    for i := 0 to |lines|
      invariant saved == Saved(stored, Fresh(lines[..i], parse, last))
      invariant channelFound ==> posted == Notices(Fresh(lines[..i], parse, last))
      invariant !channelFound ==> posted == []
    {
      DispatchStep(stored, lines, i, parse, last);
      match parse(lines[i]) {
        case Some(e) =>
          if !LexLeq(e.timestamp, last) {
            saved := Some(e.timestamp);
            if channelFound {
              posted := posted + [Notice(e)];
            }
          }
        case None =>
      }
    }
    assert lines[..|lines|] == lines;
  }

  /**
   * The loop of `process_new_logs` from the watermark `last` read at the
   * start of the pass. When the send for line `failLine` raises, the lines
   * before it have been handled, its stamp has been saved, and the pass ends.
   */
  method Dispatch(stored: Option<string>, last: string, lines: seq<string>, parse: string -> Option<AuditEntry>,
                  channelFound: bool, failLine: Option<nat>)
    returns (saved: Option<string>, posted: seq<string>)
    ensures !SendFails(lines, parse, last, channelFound, failLine) ==>
              var handled := Fresh(lines, parse, last);
              saved == Saved(stored, handled) && posted == if channelFound then Notices(handled) else []
    ensures SendFails(lines, parse, last, channelFound, failLine) ==>
              var j := failLine.value;
              saved == Some(parse(lines[j]).value.timestamp) && posted == Notices(Fresh(lines[..j], parse, last))
  {
    if SendFails(lines, parse, last, channelFound, failLine) {
      var j := failLine.value;
      saved, posted := DispatchAll(stored, last, lines[..j], parse, channelFound);
      saved := Some(parse(lines[j]).value.timestamp);
    } else {
      saved, posted := DispatchAll(stored, last, lines, parse, channelFound);
    }
  }

  /**
   * `process_new_logs`: `log` is the text of the local log, or None when
   * opening or decoding it raises; `failLine` is the line, if any, whose
   * notice raises when sent. The watermark is read once; every matched line
   * whose timestamp is not `<=` it is saved and then posted (when the
   * channel is found). An exception ends the pass and is caught and logged:
   * what was saved and posted before it stays.
   */
  method ProcessNewLogs(stored: Option<string>, log: Option<string>, parse: string -> Option<AuditEntry>,
                        channelFound: bool, failLine: Option<nat>)
    returns (saved: Option<string>, posted: seq<string>)
    ensures log.None? ==> saved == stored && posted == []
    ensures log.Some? ==>
              var lines, last := TextModeLines(log.value), ReadWatermark(stored);
              !SendFails(lines, parse, last, channelFound, failLine) ==>
                var handled := Fresh(lines, parse, last);
                saved == Saved(stored, handled) && posted == if channelFound then Notices(handled) else []
    ensures log.Some? ==>
              var lines, last := TextModeLines(log.value), ReadWatermark(stored);
              SendFails(lines, parse, last, channelFound, failLine) ==>
                var j := failLine.value;
                saved == Some(parse(lines[j]).value.timestamp) && posted == Notices(Fresh(lines[..j], parse, last))
  {
    if log.None? {
      return stored, [];
    }
    saved, posted := Dispatch(stored, ReadWatermark(stored), TextModeLines(log.value), parse, channelFound, failLine);
  }

  /**
   * When a send raises, the stamp of its entry is already saved: the next
   * pass over the same log starts above it, so that notice is never posted.
   */
  lemma LostNotice(stored: Option<string>, lines: seq<string>, parse: string -> Option<AuditEntry>, j: nat)
    requires StrippedStamps(parse)
    requires j < |lines| && Newer(lines[j], parse, ReadWatermark(stored)) != []
    ensures var e := parse(lines[j]).value;
            e in Fresh(lines, parse, ReadWatermark(stored))
            && e !in Fresh(lines, parse, ReadWatermark(Some(e.timestamp)))
  {
    var e := parse(lines[j]).value;
    FreshIff(lines, parse, ReadWatermark(stored), e);
    SaveThenRead(e.timestamp);
    LexLessIrreflexive(e.timestamp);
    FreshIff(lines, parse, e.timestamp, e);
  }

  /** An entry is handled iff some line parses to it and its stamp is strictly newer than the watermark. */
  lemma {:induction false} FreshIff(lines: seq<string>, parse: string -> Option<AuditEntry>, last: string, e: AuditEntry)
    ensures e in Fresh(lines, parse, last) <==>
              LexLess(last, e.timestamp) && exists k :: 0 <= k < |lines| && parse(lines[k]) == Some(e)
  {
    if |lines| > 0 {
      var front := lines[..|lines| - 1];
      FreshIff(front, parse, last, e);
      if exists k :: 0 <= k < |lines| && parse(lines[k]) == Some(e) {
        var k :| 0 <= k < |lines| && parse(lines[k]) == Some(e);
        if k < |lines| - 1 {
          assert front[k] == lines[k];
        }
      }
      if exists k :: 0 <= k < |front| && parse(front[k]) == Some(e) {
        var k :| 0 <= k < |front| && parse(front[k]) == Some(e);
        assert lines[k] == front[k];
      }
    }
  }

  /** Every stamp a pass saves is strictly newer than the watermark it started from. */
  lemma WatermarkAdvances(stored: Option<string>, lines: seq<string>, parse: string -> Option<AuditEntry>)
    requires StrippedStamps(parse)
    ensures var handled := Fresh(lines, parse, ReadWatermark(stored));
            |handled| > 0 ==>
              var w := Saved(stored, handled).value;
              Unpadded(w) && ReadWatermark(Some(w)) == w && LexLess(ReadWatermark(stored), w)
  {
    var handled := Fresh(lines, parse, ReadWatermark(stored));
    if |handled| > 0 {
      var e := handled[|handled| - 1];
      FreshIff(lines, parse, ReadWatermark(stored), e);
      var k :| 0 <= k < |lines| && parse(lines[k]) == Some(e);
      SaveThenRead(e.timestamp);
    }
  }

  /** With no line newer than `w`, nothing is handled. */
  lemma {:induction false} NothingAbove(lines: seq<string>, parse: string -> Option<AuditEntry>, w: string)
    requires forall k :: 0 <= k < |lines| && parse(lines[k]).Some? ==> LexLeq(parse(lines[k]).value.timestamp, w)
    ensures Fresh(lines, parse, w) == []
  {
    if |lines| > 0 {
      var front := lines[..|lines| - 1];
      assert forall k :: 0 <= k < |front| ==> front[k] == lines[k];
      NothingAbove(front, parse, w);
      match parse(lines[|lines| - 1])
      case Some(e) => LexLeqNotLess(e.timestamp, w);
      case None =>
    }
  }

  /** The matched lines carry non-decreasing timestamps. */
  predicate InOrder(lines: seq<string>, parse: string -> Option<AuditEntry>) {
    forall i, j :: 0 <= i < j < |lines| && parse(lines[i]).Some? && parse(lines[j]).Some? ==>
      LexLeq(parse(lines[i]).value.timestamp, parse(lines[j]).value.timestamp)
  }

  /** On entries in time order, no entry is later than the last one handled. */
  lemma {:induction false} LastHandledIsLatest(lines: seq<string>, parse: string -> Option<AuditEntry>, last: string)
    requires InOrder(lines, parse)
    requires |Fresh(lines, parse, last)| > 0
    ensures var handled := Fresh(lines, parse, last);
            forall k :: 0 <= k < |lines| && parse(lines[k]).Some? ==>
              LexLeq(parse(lines[k]).value.timestamp, handled[|handled| - 1].timestamp)
  {
    var n := |lines| - 1;
    var front := lines[..n];
    var handled := Fresh(lines, parse, last);
    var f := handled[|handled| - 1];
    assert forall k :: 0 <= k < n ==> front[k] == lines[k];
    if Newer(lines[n], parse, last) == [] {
      assert InOrder(front, parse);
      LastHandledIsLatest(front, parse, last);
      FreshIff(front, parse, last, f);
      forall k | 0 <= k < |lines| && parse(lines[k]).Some?
        ensures LexLeq(parse(lines[k]).value.timestamp, f.timestamp)
      {
        if k == n {
          var t := parse(lines[k]).value.timestamp;
          LexLeqNotLess(t, last);
          if t != last {
            LexLessTransitive(t, last, f.timestamp);
          }
        }
      }
    } else {
      assert f == parse(lines[n]).value;
      LexLeqNotLess(f.timestamp, f.timestamp);
    }
  }

  /**
   * On a log whose entries are in time order, a second pass over the same log,
   * starting from the watermark the first pass left, posts nothing.
   */
  lemma SecondPassIdle(stored: Option<string>, lines: seq<string>, parse: string -> Option<AuditEntry>)
    requires StrippedStamps(parse) && InOrder(lines, parse)
    ensures var first := Fresh(lines, parse, ReadWatermark(stored));
            Fresh(lines, parse, ReadWatermark(Saved(stored, first))) == []
  {
    var last := ReadWatermark(stored);
    var handled := Fresh(lines, parse, last);
    if |handled| > 0 {
      var w := handled[|handled| - 1].timestamp;
      assert ReadWatermark(Saved(stored, handled)) == w by {
        WatermarkAdvances(stored, lines, parse);
      }
      assert forall k :: 0 <= k < |lines| && parse(lines[k]).Some? ==> LexLeq(parse(lines[k]).value.timestamp, w) by {
        LastHandledIsLatest(lines, parse, last);
      }
      NothingAbove(lines, parse, w);
    }
  }

  /**
   * The watermark is the last handled stamp, not the largest: when a newer
   * entry precedes an older one, both are posted and the newer one is posted
   * again on the next pass.
   */
  lemma OutOfOrderRepost(lineA: string, lineB: string, parse: string -> Option<AuditEntry>, stored: Option<string>)
    requires parse(lineA).Some? && parse(lineB).Some?
    requires Unpadded(parse(lineB).value.timestamp)
    requires LexLess(ReadWatermark(stored), parse(lineB).value.timestamp)
    requires LexLess(parse(lineB).value.timestamp, parse(lineA).value.timestamp)
    ensures Fresh([lineA, lineB], parse, ReadWatermark(stored)) == [parse(lineA).value, parse(lineB).value]
    ensures var w := Saved(stored, Fresh([lineA, lineB], parse, ReadWatermark(stored)));
            Fresh([lineA, lineB], parse, ReadWatermark(w)) == [parse(lineA).value]
  {
    var last := ReadWatermark(stored);
    var a, b := parse(lineA).value, parse(lineB).value;
    assert Fresh([lineA, lineB], parse, last) == [a, b] by {
      LexLessTransitive(last, b.timestamp, a.timestamp);
      FreshPair(lineA, lineB, parse, last);
    }
    assert ReadWatermark(Some(b.timestamp)) == b.timestamp by {
      SaveThenRead(b.timestamp);
    }
    assert Fresh([lineA, lineB], parse, b.timestamp) == [a] by {
      LexLessIrreflexive(b.timestamp);
      FreshPair(lineA, lineB, parse, b.timestamp);
    }
  }

  lemma FreshPair(lineA: string, lineB: string, parse: string -> Option<AuditEntry>, last: string)
    ensures Fresh([lineA, lineB], parse, last) == Newer(lineA, parse, last) + Newer(lineB, parse, last)
  {
    var lines := [lineA, lineB];
    assert Fresh(lines, parse, last) == Fresh([lineA], parse, last) + Newer(lineB, parse, last) by {
      assert lines[..1] == [lineA];
    }
    assert Fresh([lineA], parse, last) == Newer(lineA, parse, last) by {
      assert [lineA][..0] == [];
    }
  }

  /**
   * One iteration of `get_command_logs`: when the download fails nothing
   * happens; otherwise the local log is processed.
   */
  method CommandLogCycle(stored: Option<string>, downloaded: bool, log: Option<string>,
                         parse: string -> Option<AuditEntry>, channelFound: bool, failLine: Option<nat>)
    returns (saved: Option<string>, posted: seq<string>)
    ensures !downloaded || log.None? ==> saved == stored && posted == []
    ensures downloaded && log.Some? ==>
              var lines, last := TextModeLines(log.value), ReadWatermark(stored);
              !SendFails(lines, parse, last, channelFound, failLine) ==>
                var handled := Fresh(lines, parse, last);
                saved == Saved(stored, handled) && posted == (if channelFound then Notices(handled) else [])
    ensures downloaded && log.Some? ==>
              var lines, last := TextModeLines(log.value), ReadWatermark(stored);
              SendFails(lines, parse, last, channelFound, failLine) ==>
                var j := failLine.value;
                saved == Some(parse(lines[j]).value.timestamp) && posted == Notices(Fresh(lines[..j], parse, last))
  {
    if !downloaded {
      return stored, [];
    }
    saved, posted := ProcessNewLogs(stored, log, parse, channelFound, failLine);
  }
}

=== FILE: dino_roster.dfy ===
/**
 * Population control: per-species live counts from the server's telemetry,
 * the roster of playable species pushed back to the server, the
 * ENABLED/DISABLED notices diffed against the previous cycle, and the
 * temporary-unlock registry.
 *
 * The RCON replies arrive as strings. A line of the `getplayerdata` reply is
 * read through `parse`, which stands for the three regular expressions
 * (`Class: BP_(\w+)_C`, `Health: ([0-9.]+)`, `PlayerID: (\d{17})`) and the
 * `float` conversion of the health.
 */
module DinoRoster {
  import opened Wrappers
  import opened Text
  import RconClient

  datatype Cap = Uncapped | Limit(n: int)

  /** `DINO_POPULATION_CAPS`, in declaration order; `None` is `Uncapped`. */
  const Caps: seq<(string, Cap)> := [
    ("Dryosaurus", Limit(-1)),
    ("Hypsilophodon", Limit(-1)),
    ("Pachycephalosaurus", Limit(8)),
    ("Stegosaurus", Limit(20)),
    ("Tenontosaurus", Uncapped),
    ("Carnotaurus", Uncapped),
    ("Maiasaura", Uncapped),
    ("Ceratosaurus", Uncapped),
    ("Deinosuchus", Limit(10)),
    ("Diabloceratops", Limit(0)),
    ("Omniraptor", Limit(24)),
    ("Pteranodon", Limit(0)),
    ("Troodon", Limit(10)),
    ("Beipiaosaurus", Limit(-1)),
    ("Gallimimus", Limit(8)),
    ("Dilophosaurus", Uncapped),
    ("Herrerasaurus", Limit(24))
  ]

  /** The table's species names, in table order (the iteration order of the dict). */
  const Species: seq<string> := NamesFrom(0)

  function NamesFrom(k: nat): (names: seq<string>)
    requires k <= |Caps|
    ensures |names| == |Caps| - k
    ensures forall i :: 0 <= i < |names| ==> names[i] == Caps[k + i].0
    decreases |Caps| - k
  {
    if k == |Caps| then [] else [Caps[k].0] + NamesFrom(k + 1)
  }

  const SpeciesSet: set<string> := set i | 0 <= i < |Caps| :: Caps[i].0

  /** The first table position at or after `k` holding `name`. */
  function CapPosFrom(name: string, k: nat): (r: Option<nat>)
    requires k <= |Caps|
    ensures r.Some? ==> k <= r.value < |Caps| && Caps[r.value].0 == name
    ensures r.None? ==> forall i :: k <= i < |Caps| ==> Caps[i].0 != name
    decreases |Caps| - k
  {
    if k == |Caps| then None
    else if Caps[k].0 == name then Some(k)
    else CapPosFrom(name, k + 1)
  }

  /** `DINO_POPULATION_CAPS.get(name)`: None when the species is not in the table. */
  function CapOf(name: string): Option<Cap> {
    match CapPosFrom(name, 0)
    case None => None
    case Some(i) => Some(Caps[i].1)
  }

  /** A name has a table entry exactly when it is one of the table's species. */
  lemma InTableIff(name: string)
    ensures CapOf(name).Some? <==> name in SpeciesSet
    ensures name in SpeciesSet <==> name in Species
  {
    if name in SpeciesSet {
      var i :| 0 <= i < |Caps| && Caps[i].0 == name;
      assert Species[i] == name;
    }
    if name in Species {
      var i :| 0 <= i < |Species| && Species[i] == name;
      assert Caps[i].0 == name;
    }
  }

  /** Species names are made of ASCII letters only; in particular none holds a comma. */
  lemma SpeciesNamesAreLetters()
    ensures forall k, i :: 0 <= k < |Caps| && 0 <= i < |Caps[k].0| ==>
              ('A' <= Caps[k].0[i] <= 'Z' || 'a' <= Caps[k].0[i] <= 'z')
  {
  }

  // ------------------------------------------------------------ counting

  /** What the three patterns found on one line of the `getplayerdata` reply. */
  datatype Reading = Reading(dinoClass: Option<string>, health: Option<real>, steamId: Option<string>)

  /** A line counts towards `species`: all three patterns matched, the dino is alive and its player online. */
  predicate CountsFor(r: Reading, online: set<string>, species: string) {
    && r.dinoClass == Some(species)
    && r.health.Some? && r.health.value > 0.0
    && r.steamId.Some? && r.steamId.value in online
  }

  /** Reference count: the number of readings that count towards `species`. */
  function CountOf(rs: seq<Reading>, online: set<string>, species: string): nat {
    if |rs| == 0 then 0
    else (if CountsFor(rs[0], online, species) then 1 else 0) + CountOf(rs[1..], online, species)
  }

  /** The counting loop of `get_dino_population`: one reading at a time, bumping a known class. */
  function Tally(rs: seq<Reading>, online: set<string>, counts: map<string, nat>): (r: map<string, nat>)
    ensures r.Keys == counts.Keys
    ensures forall s :: s in counts ==> r[s] == counts[s] + CountOf(rs, online, s)
    decreases |rs|
  {
    if |rs| == 0 then counts
    else
      var x := rs[0];
      var next :=
        if x.dinoClass.Some? && x.health.Some? && x.steamId.Some?
           && x.health.value > 0.0 && x.steamId.value in online && x.dinoClass.value in counts
        then counts[x.dinoClass.value := counts[x.dinoClass.value] + 1]
        else counts;
      Tally(rs[1..], online, next)
  }

  /**
   * `set(re.findall(r"(\d{17})", text))` from position `k`: scanning left to
   * right, a run of 17 digits is taken and the scan resumes after it.
   */
  function OnlineIdsFrom(text: string, k: nat): (ids: set<string>)
    requires k <= |text|
    ensures forall id :: id in ids ==> |id| == 17 && AllDigits(id)
    decreases |text| - k
  {
    if k + 17 > |text| then {}
    else if AllDigits(text[k..k + 17]) then {text[k..k + 17]} + OnlineIdsFrom(text, k + 17)
    else OnlineIdsFrom(text, k + 1)
  }

  function OnlineIds(playerList: string): set<string> {
    OnlineIdsFrom(playerList, 0)
  }

  /** An id found in the player list occurs in it. */
  lemma {:induction false} OnlineIdOccurs(text: string, k: nat, id: string)
    requires k <= |text| && id in OnlineIdsFrom(text, k)
    ensures exists j :: k <= j && OccursAt(text, id, j)
    decreases |text| - k
  {
    if AllDigits(text[k..k + 17]) && id == text[k..k + 17] {
      assert OccursAt(text, id, k);
    } else if AllDigits(text[k..k + 17]) {
      OnlineIdOccurs(text, k + 17, id);
    } else {
      OnlineIdOccurs(text, k + 1, id);
    }
  }

  /** A run of 17 digits that starts a run of digits is found. */
  lemma {:induction false} OnlineIdFound(text: string, k: nat, j: nat)
    requires k <= j && j + 17 <= |text| && AllDigits(text[j..j + 17])
    requires j == k || !IsDigit(text[j - 1])
    ensures text[j..j + 17] in OnlineIdsFrom(text, k)
    decreases j - k
  {
    if k < j {
      if AllDigits(text[k..k + 17]) {
        OnlineIdFound(text, k + 17, j);
      } else {
        OnlineIdFound(text, k + 1, j);
      }
    }
  }

  /** Readings of the lines of a reply, split on "\n". */
  function Readings(response: string, parse: string -> Reading): seq<Reading> {
    var lines := Split(response, "\n");
    seq(|lines|, i requires 0 <= i < |lines| => parse(lines[i]))
  }

  /** Counts keyed by exactly the table's species. */
  predicate IsCensus(pop: map<string, nat>) {
    pop.Keys == SpeciesSet
  }

  /** `dino_count`'s starting value: 0 for every table species. */
  const ZeroCensus: map<string, nat> := map s | s in SpeciesSet :: 0

  /** The counts of a reply: a census whose every entry is the reference count. */
  function CountReadings(rs: seq<Reading>, online: set<string>): (pop: map<string, nat>)
    ensures IsCensus(pop) && pop != map[]
    ensures forall s :: s in pop ==> pop[s] == CountOf(rs, online, s)
  {
    assert Caps[0].0 in SpeciesSet;
    Tally(rs, online, ZeroCensus)
  }

  /**
   * `get_dino_population`: `{}` when the connection fails or the
   * `getplayerdata` reply is empty or holds the no-response marker; otherwise
   * one count per table species, starting at 0.
   */
  function GetDinoPopulation(connected: bool, playerList: string, response: string, parse: string -> Reading)
    : (pop: map<string, nat>)
    ensures pop == map[] <==> !connected || response == "" || Contains(response, RconClient.NoResponseMarker)
    ensures pop != map[] ==> IsCensus(pop)
    ensures pop != map[] ==>
              forall s :: s in pop ==> pop[s] == CountOf(Readings(response, parse), OnlineIds(playerList), s)
  {
    if !connected || response == "" || Contains(response, RconClient.NoResponseMarker) then
      map[]
    else
      CountReadings(Readings(response, parse), OnlineIds(playerList))
  }

  /**
   * A read timeout reaches the counter as the timeout sentinel, which passes the
   * no-response check: when its one line yields no class, every species
   * counts 0, as if the server were empty.
   */
  lemma TimeoutCountsAsEmptyServer(playerList: string, parse: string -> Reading)
    requires parse(RconClient.ReadPacket(RconClient.TimedOut)).dinoClass.None?
    ensures var pop := GetDinoPopulation(true, playerList, RconClient.ReadPacket(RconClient.TimedOut), parse);
            IsCensus(pop) && forall s :: s in pop ==> pop[s] == 0
  {
    var timeoutText := RconClient.ReadPacket(RconClient.TimedOut);
    RconClient.TimeoutEscapesNoResponseCheck();
    assert Split(timeoutText, "\n") == [timeoutText] by {
      forall j: nat
        ensures !OccursAt(timeoutText, "\n", j)
      {
        if j + 1 <= |timeoutText| {
          assert timeoutText[j..j + 1][0] == timeoutText[j];
        }
      }
      AbsentFrom(timeoutText, "\n", 0);
    }
    var rs := Readings(timeoutText, parse);
    assert rs == [parse(timeoutText)];
    assert rs[1..] == [];
  }

  // ------------------------------------------------------------ the roster

  /**
   * Neither-greedy subsequence: `a` can be obtained from `b` by deleting
   * elements.
   */
  predicate IsSubsequence(a: seq<string>, b: seq<string>) {
    |a| == 0 || (|b| > 0 && (IsSubsequence(a, b[1..]) || (a[0] == b[0] && IsSubsequence(a[1..], b[1..]))))
  }

  /** Keeping the head of `b` in front of a subsequence of its tail. */
  lemma ConsSubsequence(x: string, rest: seq<string>, b: seq<string>)
    requires |b| > 0 && b[0] == x && IsSubsequence(rest, b[1..])
    ensures IsSubsequence([x] + rest, b)
  {
    assert ([x] + rest)[1..] == rest;
  }

  /** The names `keep` accepts, in their order in `names`. */
  function Keep(keep: string -> bool, names: seq<string>): (r: seq<string>)
    ensures forall s :: s in r <==> s in names && keep(s)
    ensures IsSubsequence(r, names)
  {
    if |names| == 0 then []
    else
      var rest := Keep(keep, names[1..]);
      assert names == [names[0]] + names[1..];
      if keep(names[0]) then
        ConsSubsequence(names[0], rest, names);
        [names[0]] + rest
      else
        rest
  }

  /** The dict comprehension's test: temp-unlocked, uncapped, or at or under the cap. */
  predicate Allowed(s: string, count: int, unlocks: set<string>) {
    || s in unlocks
    || CapOf(s) == Some(Uncapped)
    || (CapOf(s).Some? && CapOf(s).value.Limit? && count <= CapOf(s).value.n)
  }

  /** `enabled_dinos` of `update_dino_roster`: the allowed species of a census, in table order. */
  function EnabledDinos(pop: map<string, nat>, unlocks: set<string>): (r: seq<string>)
    ensures forall s :: s in r <==> s in Species && s in pop && Allowed(s, pop[s], unlocks)
    ensures IsSubsequence(r, Species)
  {
    Keep(s => s in pop && Allowed(s, pop[s], unlocks), Species)
  }

  /**
   * A species of a census is in the roster iff it is temp-unlocked, uncapped,
   * or its count is at most its cap; the roster keeps table order.
   */
  lemma EnabledIff(pop: map<string, nat>, unlocks: set<string>, s: string)
    requires IsCensus(pop)
    ensures s in EnabledDinos(pop, unlocks) <==>
              CapOf(s).Some? && (s in unlocks || CapOf(s).value.Uncapped? || pop[s] <= CapOf(s).value.n)
    ensures IsSubsequence(EnabledDinos(pop, unlocks), Species)
  {
    InTableIff(s);
    assert Species[0..] == Species;
  }

  /** A species capped at -1 is never in the roster unless temp-unlocked; one capped at 0 only at count 0. */
  lemma NegativeAndZeroCaps(pop: map<string, nat>, unlocks: set<string>, s: string)
    requires IsCensus(pop) && s !in unlocks
    ensures CapOf(s) == Some(Limit(-1)) ==> s !in EnabledDinos(pop, unlocks)
    ensures CapOf(s) == Some(Limit(0)) ==> (s in EnabledDinos(pop, unlocks) <==> pop[s] == 0)
  {
    EnabledIff(pop, unlocks, s);
  }

  /** The `updateplayables` payload: the roster joined with commas. */
  function RosterString(roster: seq<string>): string {
    Join(roster, ",")
  }

  /** A non-empty roster of table species can be read back from its payload by splitting on commas. */
  lemma RosterStringRoundTrip(roster: seq<string>)
    requires |roster| >= 1 && forall k :: 0 <= k < |roster| ==> roster[k] in SpeciesSet
    ensures Split(RosterString(roster), ",") == roster
  {
    SpeciesNamesAreLetters();
    forall k | 0 <= k < |roster|
      ensures !Contains(roster[k], ",")
    {
      var name := roster[k];
      InTableIff(name);
      var j :| 0 <= j < |Species| && Species[j] == name;
      assert name == Caps[j].0;
      FirstCharNowhere(name, ",");
    }
    SplitJoin(roster, ",");
  }

  // ------------------------------------------------------------ the diff

  datatype Change = Enabled(species: string) | Disabled(species: string)

  /** The numeric cap of a capped table species. */
  function LimitOf(s: string): Option<int> {
    match CapOf(s)
    case Some(Limit(n)) => Some(n)
    case _ => None
  }

  /** `notify_dino_changes`' per-species test, over the census species `names` in order. */
  function ChangesOver(pop: map<string, nat>, last: map<string, nat>, names: seq<string>): (r: seq<Change>)
    requires forall i :: 0 <= i < |names| ==> names[i] in pop
    ensures forall s :: Enabled(s) in r <==>
              s in names && LimitOf(s).Some?
              && s in last && last[s] > LimitOf(s).value && pop[s] <= LimitOf(s).value
    ensures forall s :: Disabled(s) in r <==>
              s in names && LimitOf(s).Some?
              && (s !in last || last[s] <= LimitOf(s).value) && pop[s] > LimitOf(s).value
  {
    if |names| == 0 then []
    else
      var s := names[0];
      var rest := ChangesOver(pop, last, names[1..]);
      assert names == [s] + names[1..];
      match LimitOf(s)
      case None => rest
      case Some(cap) =>
        var previouslyEnabled := s !in last || last[s] <= cap;
        var currentlyEnabled := pop[s] <= cap;
        if currentlyEnabled && !previouslyEnabled then [Enabled(s)] + rest
        else if !currentlyEnabled && previouslyEnabled then [Disabled(s)] + rest
        else rest
  }

  /** The notices of one cycle: only capped species, and never both directions for one species. */
  function Changes(pop: map<string, nat>, last: map<string, nat>): (r: seq<Change>)
    requires IsCensus(pop)
    ensures forall c :: c in r ==> LimitOf(c.species).Some?
    ensures forall s :: !(Enabled(s) in r && Disabled(s) in r)
  {
    CensusCoversTable(pop);
    ChangesOverShape(pop, last, Species);
    ChangesOver(pop, last, Species)
  }

  lemma CensusCoversTable(pop: map<string, nat>)
    requires IsCensus(pop)
    ensures forall i :: 0 <= i < |Species| ==> Species[i] in pop
  {
    forall i | 0 <= i < |Species| ensures Species[i] in pop {
      InTableIff(Species[i]);
    }
  }

  lemma ChangesOverShape(pop: map<string, nat>, last: map<string, nat>, names: seq<string>)
    requires forall i :: 0 <= i < |names| ==> names[i] in pop
    ensures forall c :: c in ChangesOver(pop, last, names) ==> LimitOf(c.species).Some?
    ensures forall s :: !(Enabled(s) in ChangesOver(pop, last, names) && Disabled(s) in ChangesOver(pop, last, names))
  {
    var r := ChangesOver(pop, last, names);
    forall c | c in r ensures LimitOf(c.species).Some? {
      match c
      case Enabled(s) => assert Enabled(s) in r;
      case Disabled(s) => assert Disabled(s) in r;
    }
  }

  /**
   * ENABLED is reported iff the previous count exists and exceeds the cap while
   * the current count is within it; DISABLED iff the previous count is absent
   * or within the cap while the current count exceeds it. Uncapped species
   * and temporary unlocks play no part.
   */
  lemma ChangesIff(pop: map<string, nat>, last: map<string, nat>, s: string)
    requires IsCensus(pop)
    ensures Enabled(s) in Changes(pop, last) <==>
              LimitOf(s).Some? && s in last && last[s] > LimitOf(s).value && pop[s] <= LimitOf(s).value
    ensures Disabled(s) in Changes(pop, last) <==>
              LimitOf(s).Some? && (s !in last || last[s] <= LimitOf(s).value) && pop[s] > LimitOf(s).value
    ensures CapOf(s) == Some(Uncapped) ==> Enabled(s) !in Changes(pop, last) && Disabled(s) !in Changes(pop, last)
  {
    InTableIff(s);
  }

  /** With no previous cycle, every capped species over its cap is reported DISABLED and none ENABLED. */
  lemma FirstCycleReportsOverCap(pop: map<string, nat>, s: string)
    requires IsCensus(pop)
    ensures Enabled(s) !in Changes(pop, map[])
    ensures Disabled(s) in Changes(pop, map[]) <==> LimitOf(s).Some? && pop[s] > LimitOf(s).value
  {
    ChangesIff(pop, map[], s);
  }

  /** Diffing a census against itself reports nothing. */
  lemma {:induction false} NoChangeNoNotice(pop: map<string, nat>)
    requires IsCensus(pop)
    ensures Changes(pop, pop) == []
  {
    var r := Changes(pop, pop);
    if |r| > 0 {
      assert r[0] in r;
      match r[0]
      case Enabled(s) => ChangesIff(pop, pop, s);
      case Disabled(s) => ChangesIff(pop, pop, s);
    }
  }

  const Header: string :=
    "## \U{267B}\U{FE0F} Automated Population Control Update\n\n"
    + "The following spawn changes were automatically applied to the game server. "
    + "You can still spawn with an existing save or in a nest even if a species is disabled.\n"

  const Rule: string := "=============================================="

  function ChangeLine(c: Change): string {
    match c
    case Enabled(s) => "> \U{2705} **" + Upper(s) + "** spawns have been **ENABLED**\n"
    case Disabled(s) => "> \U{274C} **" + Upper(s) + "** spawns have been **DISABLED**\n"
  }

  /** The single channel message that carries all the changes of a cycle. */
  function ChangeMessage(changes: seq<Change>): string {
    Header + "\n" + Join(seq(|changes|, i requires 0 <= i < |changes| => ChangeLine(changes[i])), "\n") + "\n" + Rule
  }

  // ------------------------------------------------------------ the loop

  /** The module-level globals: `last_dino_state` and `TEMP_UNLOCKS`. */
  datatype RosterState = RosterState(last: map<string, nat>, unlocks: set<string>)

  /** Roster payloads pushed with `updateplayables` and messages posted to the alerts channel. */
  datatype CycleOutput = CycleOutput(state: RosterState, pushed: seq<string>, posted: seq<string>)

  /**
   * One pass of the `update_dino_roster` loop on a population already
   * fetched: `pushConnected` is whether the client connected for the push,
   * `channelFound` whether the alerts channel was found.
   */
  function RosterCycle(st: RosterState, pop: map<string, nat>, pushConnected: bool, channelFound: bool)
    : (r: CycleOutput)
    requires pop == map[] || IsCensus(pop)
    ensures pop == map[] ==> r == CycleOutput(st, [], [])
    ensures pop != map[] ==> r.state == RosterState(pop, st.unlocks)
    ensures pop != map[] ==>
              r.pushed == (if pushConnected then [RosterString(EnabledDinos(pop, st.unlocks))] else [])
    ensures |r.posted| <= 1
    ensures |r.posted| == 1 <==> pop != map[] && channelFound && Changes(pop, st.last) != []
    ensures |r.posted| == 1 ==> r.posted[0] == ChangeMessage(Changes(pop, st.last))
  {
    if pop == map[] then
      CycleOutput(st, [], [])
    else
      var roster := RosterString(EnabledDinos(pop, st.unlocks));
      var changes := Changes(pop, st.last);
      CycleOutput(
        RosterState(pop, st.unlocks),
        if pushConnected then [roster] else [],
        if channelFound && changes != [] then [ChangeMessage(changes)] else [])
  }

  /** A second cycle on unchanged counts posts nothing. */
  lemma SteadyCountsPostNothing(st: RosterState, pop: map<string, nat>, p1: bool, c1: bool, p2: bool, c2: bool)
    requires IsCensus(pop)
    ensures RosterCycle(RosterCycle(st, pop, p1, c1).state, pop, p2, c2).posted == []
  {
    NoChangeNoNotice(pop);
  }

  // ------------------------------------------------------------ temporary unlocks

  /** What `unlock_dino_for_temp` does before its two-minute sleep. */
  datatype UnlockOutput = UnlockOutput(unlocks: set<string>, pushed: seq<string>, unlocked: Option<string>)

  /** The roster pushed at unlock time: registered unlocks, uncapped species, and the new name. */
  function UnlockRoster(unlocks: set<string>, name: string): seq<string> {
    Keep(d => d in unlocks || CapOf(d) == Some(Uncapped) || d == name, Species)
  }

  /**
   * `unlock_dino_for_temp` up to the sleep: a name not in the table after
   * capitalisation changes nothing; otherwise it joins the registry and the
   * roster of unlocked, uncapped and that species is pushed.
   */
  function UnlockDinoForTemp(unlocks: set<string>, rawName: string, pushConnected: bool): (r: UnlockOutput)
    ensures CapOf(Capitalize(rawName)).None? ==> r == UnlockOutput(unlocks, [], None)
    ensures CapOf(Capitalize(rawName)).Some? ==>
              r.unlocks == unlocks + {Capitalize(rawName)} && r.unlocked == Some(Capitalize(rawName))
    ensures |r.pushed| <= 1 && (|r.pushed| == 1 <==> pushConnected && CapOf(Capitalize(rawName)).Some?)
    ensures |r.pushed| == 1 ==> Split(r.pushed[0], ",") == UnlockRoster(r.unlocks, Capitalize(rawName))
  {
    var name := Capitalize(rawName);
    if CapOf(name).None? then
      UnlockOutput(unlocks, [], None)
    else
      var registry := unlocks + {name};
      var roster := UnlockRoster(registry, name);
      if pushConnected then
        UnlockRosterOfTable(registry, name);
        RosterStringRoundTrip(roster);
        UnlockOutput(registry, [RosterString(roster)], Some(name))
      else
        UnlockOutput(registry, [], Some(name))
  }

  /** The unlock roster is the table species that are unlocked, uncapped, or the new name. */
  lemma UnlockRosterIff(unlocks: set<string>, name: string, d: string)
    ensures d in UnlockRoster(unlocks, name) <==>
              d in SpeciesSet && (d in unlocks || CapOf(d) == Some(Uncapped) || d == name)
  {
    InTableIff(d);
    assert Species[0..] == Species;
  }

  /** For a table species the unlock roster is non-empty and made of table species. */
  lemma UnlockRosterOfTable(unlocks: set<string>, name: string)
    requires name in SpeciesSet
    ensures var roster := UnlockRoster(unlocks, name);
            |roster| >= 1 && forall k :: 0 <= k < |roster| ==> roster[k] in SpeciesSet
  {
    var roster := UnlockRoster(unlocks, name);
    UnlockRosterIff(unlocks, name, name);
    forall k | 0 <= k < |roster|
      ensures roster[k] in SpeciesSet
    {
      UnlockRosterIff(unlocks, name, roster[k]);
    }
  }

  /** What `disable_unlocked_dino` does before it re-enters the loop. */
  datatype DisableOutput = DisableOutput(unlocks: set<string>, posted: seq<string>)

  function DisableMessage(name: string): string {
    Header + "\n" + ChangeLine(Disabled(name)) + "\n" + Rule
  }

  /**
   * `disable_unlocked_dino`: removes just that name from the registry and,
   * when the channel is found, posts one DISABLED notice whatever the
   * species' count.
   */
  function DisableUnlockedDino(unlocks: set<string>, name: string, channelFound: bool): (r: DisableOutput)
    ensures r.unlocks == unlocks - {name}
    ensures forall d :: d != name ==> (d in r.unlocks <==> d in unlocks)
    ensures r.posted == (if channelFound then [DisableMessage(name)] else [])
  {
    DisableOutput(unlocks - {name}, if channelFound then [DisableMessage(name)] else [])
  }
}

=== FILE: log_monitor.dfy ===
/**
 * The second copy of the audit feed, driven by the shared FTP download
 * helper. Its pass over the log is the same as the first copy's; only the
 * target-player extraction is spelled differently and the download reports
 * a path rather than a flag.
 */
module LogMonitor {
  import opened Wrappers
  import opened Text
  import CommandLogs

  /** `extract_target_player`, the conditional-expression spelling. */
  function ExtractTargetPlayer(details: string): (name: string)
    ensures !Contains(name, ", ")
    ensures |name| <= |details| && name == details[..|name|]
  {
    var parts := Split(details, ", ");
    SplitFirstPiece(details, ", ");
    if |parts| > 0 then parts[0] else "Unknown Player"
  }

  /** Both spellings name the same player, so the notices of the two feeds agree. */
  lemma ExtractorsAgree(details: string)
    ensures ExtractTargetPlayer(details) == CommandLogs.ExtractTargetPlayer(details)
  {
  }

  /**
   * One iteration of `get_command_logs`: a missing or empty path from the
   * download helper means nothing happens; otherwise the local copy of the
   * log (None when it cannot be opened or decoded) is processed, whatever
   * path was reported.
   */
  method MonitorCycle(stored: Option<string>, logPath: Option<string>, localLog: Option<string>,
                      parse: string -> Option<CommandLogs.AuditEntry>, channelFound: bool, failLine: Option<nat>)
    returns (saved: Option<string>, posted: seq<string>)
    ensures (logPath.None? || logPath == Some("") || localLog.None?) ==> saved == stored && posted == []
    ensures logPath.Some? && logPath != Some("") && localLog.Some? ==>
              var lines, last := TextModeLines(localLog.value), CommandLogs.ReadWatermark(stored);
              !CommandLogs.SendFails(lines, parse, last, channelFound, failLine) ==>
                var handled := CommandLogs.Fresh(lines, parse, last);
                saved == CommandLogs.Saved(stored, handled)
                && posted == (if channelFound then CommandLogs.Notices(handled) else [])
    ensures logPath.Some? && logPath != Some("") && localLog.Some? ==>
              var lines, last := TextModeLines(localLog.value), CommandLogs.ReadWatermark(stored);
              CommandLogs.SendFails(lines, parse, last, channelFound, failLine) ==>
                var j := failLine.value;
                saved == Some(parse(lines[j]).value.timestamp)
                && posted == CommandLogs.Notices(CommandLogs.Fresh(lines[..j], parse, last))
  {
    if logPath.None? || logPath == Some("") {
      return stored, [];
    }
    saved, posted := CommandLogs.ProcessNewLogs(stored, localLog, parse, channelFound, failLine);
  }
}

=== FILE: pairing_chats.dfy ===
/**
 * The pairing scanner: new chat lines of the downloaded log, read from a
 * remembered offset, are searched for a pairing code and a Steam id; the
 * first code with a pending pairing request is completed with that id and
 * the scan stops.
 *
 * The pairing table is a map from pair code to its row (codes are unique:
 * `/pair` makes them from a fresh UUID). Offsets count characters.
 */
module PairingChats {
  import opened Wrappers
  import opened Text

  datatype Status = Pending | Completed

  datatype Pairing = Pairing(discordId: string, status: Status, steamId: Option<string>)

  type Store = map<string, Pairing>

  const ChatMarker: string := "[LogTheIsleChatData]"

  const CodePrefix: string := "FD-PAIR-"

  /** The class `[a-fA-F0-9\-]` of the pair-code pattern. */
  predicate IsHexDash(c: char) {
    ('a' <= c <= 'f') || ('A' <= c <= 'F') || ('0' <= c <= '9') || c == '-'
  }

  predicate AllHexDash(t: string) {
    forall i :: 0 <= i < |t| ==> IsHexDash(t[i])
  }

  /** Length of the longest run of hex/dash characters starting at `k`. */
  function HexRun(s: string, k: nat): (n: nat)
    requires k <= |s|
    ensures k + n <= |s|
    ensures AllHexDash(s[k..k + n])
    ensures k + n == |s| || !IsHexDash(s[k + n])
    decreases |s| - k
  {
    if k == |s| || !IsHexDash(s[k]) then 0
    else
      var m := HexRun(s, k + 1);
      assert s[k..k + 1 + m] == [s[k]] + s[k + 1..k + 1 + m];
      1 + m
  }

  /** A match of `FD-PAIR-[a-fA-F0-9\-]+` starts at `i`. */
  predicate CodeStartsAt(s: string, i: nat) {
    OccursAt(s, CodePrefix, i) && i + 8 < |s| && IsHexDash(s[i + 8])
  }

  /** `j` is the leftmost position at or after `i` where a code match starts. */
  predicate FirstCodeAt(s: string, i: nat, j: nat) {
    i <= j && CodeStartsAt(s, j) && forall k :: i <= k < j ==> !CodeStartsAt(s, k)
  }

  /** `PAIR_CODE_PATTERN.search(line).group()` from position `i`: the leftmost match, taken greedily. */
  function PairCodeFrom(s: string, i: nat): (r: Option<string>)
    requires i <= |s|
    ensures r.Some? ==> |r.value| > 8 && r.value[..8] == CodePrefix
    ensures r.Some? ==> AllHexDash(r.value[8..])
    ensures r.None? <==> forall j :: i <= j < |s| ==> !CodeStartsAt(s, j)
    ensures r.Some? ==> exists j: nat :: FirstCodeAt(s, i, j) && r.value == s[j..j + 8 + HexRun(s, j + 8)]
    decreases |s| - i, 1
  {
    if i + 8 >= |s| then None
    else if CodeStartsAt(s, i) then
      assert FirstCodeAt(s, i, i);
      var n := HexRun(s, i + 8);
      assert s[i..i + 8 + n][8..] == s[i + 8..i + 8 + n];
      Some(s[i..i + 8 + n])
    else
      PairCodeShift(s, i);
      PairCodeFrom(s, i + 1)
  }

  /** A match found past a position where none starts is the leftmost from that position too. */
  lemma PairCodeShift(s: string, i: nat)
    requires i < |s| && !CodeStartsAt(s, i)
    ensures PairCodeFrom(s, i + 1).Some? ==>
              exists j: nat :: FirstCodeAt(s, i, j) && PairCodeFrom(s, i + 1).value == s[j..j + 8 + HexRun(s, j + 8)]
    decreases |s| - i, 0
  {
    if PairCodeFrom(s, i + 1).Some? {
      var j: nat :| FirstCodeAt(s, i + 1, j) && PairCodeFrom(s, i + 1).value == s[j..j + 8 + HexRun(s, j + 8)];
      assert i + 1 <= j && CodeStartsAt(s, j);
      assert forall k :: i <= k < j ==> !CodeStartsAt(s, k) by {
        assert forall k :: i + 1 <= k < j ==> !CodeStartsAt(s, k);
      }
      assert FirstCodeAt(s, i, j);
    }
  }

  /** A match of `\[([0-9]{17})\]:` starts at `i`. */
  predicate IdStartsAt(s: string, i: nat) {
    i + 20 <= |s| && s[i] == '[' && AllDigits(s[i + 1..i + 18]) && s[i + 18] == ']' && s[i + 19] == ':'
  }

  /** `j` is the leftmost position at or after `i` where an id match starts. */
  predicate FirstIdAt(s: string, i: nat, j: nat) {
    i <= j && IdStartsAt(s, j) && forall k :: i <= k < j ==> !IdStartsAt(s, k)
  }

  /** `STEAM_ID_PATTERN.search(line).group(1)` from position `i`: the digits of the leftmost match. */
  function SteamIdFrom(s: string, i: nat): (r: Option<string>)
    requires i <= |s|
    ensures r.Some? ==> |r.value| == 17 && AllDigits(r.value)
    ensures r.Some? ==> exists j: nat :: FirstIdAt(s, i, j) && r.value == s[j + 1..j + 18]
    ensures r.None? <==> forall j :: i <= j < |s| ==> !IdStartsAt(s, j)
    decreases |s| - i, 1
  {
    if i + 20 > |s| then None
    else if IdStartsAt(s, i) then
      assert FirstIdAt(s, i, i);
      Some(s[i + 1..i + 18])
    else
      SteamIdShift(s, i);
      SteamIdFrom(s, i + 1)
  }

  /** An id found past a position where none starts is the leftmost from that position too. */
  lemma SteamIdShift(s: string, i: nat)
    requires i < |s| && !IdStartsAt(s, i)
    ensures SteamIdFrom(s, i + 1).Some? ==>
              exists j: nat :: FirstIdAt(s, i, j) && SteamIdFrom(s, i + 1).value == s[j + 1..j + 18]
    decreases |s| - i, 0
  {
    if SteamIdFrom(s, i + 1).Some? {
      var j: nat :| FirstIdAt(s, i + 1, j) && SteamIdFrom(s, i + 1).value == s[j + 1..j + 18];
      assert i + 1 <= j && IdStartsAt(s, j);
      assert forall k :: i <= k < j ==> !IdStartsAt(s, k) by {
        assert forall k :: i + 1 <= k < j ==> !IdStartsAt(s, k);
      }
      assert FirstIdAt(s, i, j);
    }
  }

  /** The (code, id) a chat line offers, when it has the marker, a code and an id. */
  function Candidate(line: string): (r: Option<(string, string)>)
    ensures r.Some? <==> Contains(line, ChatMarker) && PairCodeFrom(line, 0).Some? && SteamIdFrom(line, 0).Some?
    ensures r.Some? ==> |r.value.0| > 8 && r.value.0[..8] == CodePrefix && |r.value.1| == 17 && AllDigits(r.value.1)
  {
    var code := PairCodeFrom(line, 0);
    var id := SteamIdFrom(line, 0);
    if Contains(line, ChatMarker) && code.Some? && id.Some? then Some((code.value, id.value)) else None
  }

  /** The code found from `i` is spelled out in the line. */
  lemma {:induction false} PairCodeOccurs(s: string, i: nat)
    requires i <= |s| && PairCodeFrom(s, i).Some?
    ensures Contains(s, PairCodeFrom(s, i).value)
    decreases |s| - i
  {
    if CodeStartsAt(s, i) {
      var n := HexRun(s, i + 8);
      SliceOccurs(s, i, i + 8 + n);
      OccursContains(s, s[i..i + 8 + n], i);
    } else {
      PairCodeOccurs(s, i + 1);
    }
  }

  /** The id found from `i` is spelled out in the line inside its brackets and colon. */
  lemma {:induction false} SteamIdOccurs(s: string, i: nat)
    requires i <= |s| && SteamIdFrom(s, i).Some?
    ensures Contains(s, "[" + SteamIdFrom(s, i).value + "]:")
    decreases |s| - i
  {
    if IdStartsAt(s, i) {
      var id := s[i + 1..i + 18];
      var tag := "[" + id + "]:";
      var w := s[i..i + 20];
      assert w[..1] == "[" && w[1..18] == id && w[18..] == "]:";
      assert w == w[..1] + w[1..18] + w[18..];
      OccursContains(s, tag, i);
    } else {
      SteamIdOccurs(s, i + 1);
    }
  }

  predicate IsPending(store: Store, code: string) {
    code in store && store[code].status == Pending
  }

  /** The update: the row of `code` gets the Steam id and becomes completed. */
  function Complete(store: Store, code: string, id: string): (r: Store)
    requires code in store
    ensures r.Keys == store.Keys
    ensures r[code] == Pairing(store[code].discordId, Completed, Some(id))
    ensures forall c :: c in store && c != code ==> r[c] == store[c]
  {
    store[code := store[code].(status := Completed, steamId := Some(id))]
  }

  /** A line that completes a pairing: a candidate whose code is pending. */
  predicate Completes(line: string, store: Store) {
    Candidate(line).Some? && IsPending(store, Candidate(line).value.0)
  }

  datatype ScanOutcome = ScanOutcome(store: Store, found: bool)

  /** Line `j` is the first line that completes a pairing. */
  predicate FirstCompleting(lines: seq<string>, store: Store, j: int) {
    0 <= j < |lines| && Completes(lines[j], store) && forall k :: 0 <= k < j ==> !Completes(lines[k], store)
  }

  /** The store after line `j`'s pairing is completed. */
  function CompletedBy(line: string, store: Store): Store
    requires Completes(line, store)
  {
    Complete(store, Candidate(line).value.0, Candidate(line).value.1)
  }

  /** Behind a line that completes nothing, the first completing line moves one place on. */
  lemma FirstCompletingShift(lines: seq<string>, store: Store, j: int)
    requires |lines| > 0 && !Completes(lines[0], store)
    requires FirstCompleting(lines[1..], store, j)
    ensures FirstCompleting(lines, store, j + 1) && lines[j + 1] == lines[1..][j]
  {
    assert forall k :: 1 <= k < |lines| ==> lines[k] == lines[1..][k - 1];
  }

  /**
   * Reference scan: the first line that completes a pairing is applied and
   * ends the scan; lines with a code that is not pending change nothing.
   */
  function Scan(lines: seq<string>, store: Store): (r: ScanOutcome)
    ensures !r.found <==> forall k :: 0 <= k < |lines| ==> !Completes(lines[k], store)
    ensures !r.found ==> r.store == store
    ensures r.found ==> exists j :: FirstCompleting(lines, store, j) && r.store == CompletedBy(lines[j], store)
    decreases |lines|
  {
    if |lines| == 0 then ScanOutcome(store, false)
    else if Completes(lines[0], store) then
      var (code, id) := Candidate(lines[0]).value;
      assert FirstCompleting(lines, store, 0);
      ScanOutcome(Complete(store, code, id), true)
    else
      var r := Scan(lines[1..], store);
      assert forall k :: 1 <= k < |lines| ==> lines[k] == lines[1..][k - 1];
      if r.found then
        var j :| FirstCompleting(lines[1..], store, j) && r.store == CompletedBy(lines[1..][j], store);
        FirstCompletingShift(lines, store, j);
        r
      else
        r
  }

  /** The lines `readlines` returns after `seek(lastSize)` on the file opened in text mode. */
  function NewLines(lastSize: nat, file: string): seq<string> {
    TextModeLines(file[if lastSize <= |file| then lastSize else |file|..])
  }

  /** `tell()` after `readlines`: the end of the file (or the seek target, past the end). */
  function EndOffset(lastSize: nat, file: string): (size: nat)
    ensures size >= lastSize && size >= |file|
    ensures size == lastSize || size == |file|
  {
    if lastSize <= |file| then |file| else lastSize
  }

  /**
   * `process_new_logs`: reads the lines after `lastSize`, moves the offset to
   * the end before scanning, and stops at the first completed pairing.
   * `decodes` says whether opening the file and decoding its bytes after the
   * offset succeed; when they do not, the exception is caught before `tell()`
   * runs, so the offset stays where it was and nothing is scanned.
   */
  method ProcessNewLogs(lastSize: nat, file: string, decodes: bool, store: Store)
    returns (size: nat, store': Store, found: bool)
    ensures !decodes ==> size == lastSize && store' == store && !found
    ensures decodes ==> size == EndOffset(lastSize, file)
    ensures decodes ==> ScanOutcome(store', found) == Scan(NewLines(lastSize, file), store)
  {
    if !decodes {
      return lastSize, store, false;
    }
    var lines := NewLines(lastSize, file);
    size := EndOffset(lastSize, file);
    store', found := store, false;
    var i := 0;
    while i < |lines|
      invariant 0 <= i <= |lines|
      invariant store' == store && !found
      invariant Scan(lines, store) == Scan(lines[i..], store)
    {
      assert lines[i..][1..] == lines[i + 1..];
      match Candidate(lines[i]) {
        case Some((code, id)) =>
          if code in store && store[code].status == Pending {
            store' := Complete(store, code, id);
            found := true;
            return;
          }
        case None =>
      }
      i := i + 1;
    }
  }

  /**
   * One iteration of `get_pairing_chats`: nothing happens unless the download
   * succeeded and the file grew past the remembered offset. A file whose new
   * bytes do not decode leaves the offset in place, so every later cycle
   * meets the same bytes again.
   */
  method PairingCycle(lastSize: nat, downloaded: Option<string>, decodes: bool, store: Store)
    returns (size: nat, store': Store, found: bool)
    ensures downloaded.None? || |downloaded.value| <= lastSize || !decodes ==>
              size == lastSize && store' == store && !found
    ensures downloaded.Some? && |downloaded.value| > lastSize && decodes ==>
              size == |downloaded.value|
              && ScanOutcome(store', found) == Scan(NewLines(lastSize, downloaded.value), store)
  {
    if downloaded.None? || |downloaded.value| <= lastSize {
      return lastSize, store, false;
    }
    size, store', found := ProcessNewLogs(lastSize, downloaded.value, decodes, store);
  }

  /**
   * The scan is not told whose code it waits for: when another user's pending
   * code appears on an earlier line, that pairing is completed and the later
   * one stays pending.
   */
  lemma FirstPendingWins(first: string, second: string, store: Store)
    requires Completes(first, store) && Completes(second, store)
    requires Candidate(first).value.0 != Candidate(second).value.0
    ensures var r := Scan([first, second], store);
            r.found && r.store[Candidate(first).value.0].status == Completed
            && IsPending(r.store, Candidate(second).value.0)
  {
  }

  /** Lines before the offset are never scanned again: appending `more` to a file read to its end scans just `more`. */
  lemma OnlyAppendedLinesScanned(file: string, more: string)
    ensures NewLines(EndOffset(0, file), file + more) == TextModeLines(more)
  {
    assert (file + more)[|file|..] == more;
  }
}

=== FILE: rcon_client.dfy ===
/**
 * `PersistentRconClient`: the game server's control-channel client.
 *
 * The client record holds the credentials, the current socket (a handle
 * number, or None), the cached `is_authorized` flag and the number of sockets
 * created so far. Each operation returns the next client record, its result
 * and the packets it handed to the transport, in order. The transport itself
 * is an oracle: whether the TCP connect succeeds and, for every packet, whether
 * `sendall` succeeded and what `recv` produced.
 */
module RconClient {
  import opened Wrappers
  import opened Text
  import opened Utf8

  /** `command_byte_map`, in declaration order. */
  const CommandTable: seq<(string, Byte)> := [
    ("announce", 0x10),
    ("directmessage", 0x11),
    ("serverdetails", 0x12),
    ("wipecorpses", 0x13),
    ("updateplayables", 0x15),
    ("ban", 0x20),
    ("kick", 0x30),
    ("playerlist", 0x40),
    ("save", 0x50),
    ("getplayerdata", 0x77),
    ("togglewhitelist", 0x81),
    ("addwhitelist", 0x82),
    ("removewhitelist", 0x83),
    ("toggleglobalchat", 0x84),
    ("togglehumans", 0x86),
    ("toggleai", 0x90),
    ("disableaiclasses", 0x91),
    ("aidensity", 0x92)
  ]

  /** The first table position at or after `k` holding `name`. */
  function TablePosFrom(name: string, k: nat): (r: Option<nat>)
    requires k <= |CommandTable|
    ensures r.Some? ==> k <= r.value < |CommandTable| && CommandTable[r.value].0 == name
    ensures r.None? ==> forall i :: k <= i < |CommandTable| ==> CommandTable[i].0 != name
    decreases |CommandTable| - k
  {
    if k == |CommandTable| then None
    else if CommandTable[k].0 == name then Some(k)
    else TablePosFrom(name, k + 1)
  }

  /** `command_byte_map.get(name)`: the code the table gives the name, if it lists it. */
  function CommandByte(name: string): (r: Option<Byte>)
    ensures r.None? <==> forall i :: 0 <= i < |CommandTable| ==> CommandTable[i].0 != name
    ensures r.Some? ==> exists i :: 0 <= i < |CommandTable| && CommandTable[i] == (name, r.value)
  {
    match TablePosFrom(name, 0)
    case None => None
    case Some(i) => Some(CommandTable[i].1)
  }

  /** Neighbouring codes of the table increase. */
  lemma TableCodesStep(i: nat)
    requires 0 < i < |CommandTable|
    ensures CommandTable[i - 1].1 < CommandTable[i].1
  {
    assert i in {1, 2, 3, 4, 5, 6, 7, 8, 9, 10, 11, 12, 13, 14, 15, 16, 17};
  }

  /** The table's codes are in strictly increasing order, hence pairwise distinct. */
  lemma {:induction false} TableCodesAscending(i: nat, j: nat)
    requires i < j < |CommandTable|
    ensures CommandTable[i].1 < CommandTable[j].1
    decreases j - i
  {
    TableCodesStep(j);
    if i < j - 1 {
      TableCodesAscending(i, j - 1);
    }
  }

  /** Two command names with the same code are the same name: name to code is injective. */
  lemma CommandByteInjective(a: string, b: string)
    requires CommandByte(a).Some? && CommandByte(a) == CommandByte(b)
    ensures a == b
  {
    var i := TablePosFrom(a, 0).value;
    var j := TablePosFrom(b, 0).value;
    if i < j {
      TableCodesAscending(i, j);
    } else if j < i {
      TableCodesAscending(j, i);
    }
  }

  /** No command code is the frame terminator 0x00. */
  lemma CommandByteNonZero(name: string)
    requires CommandByte(name).Some?
    ensures CommandByte(name).value != 0
  {
    var i := TablePosFrom(name, 0).value;
    if i > 0 {
      TableCodesAscending(0, i);
    }
  }

  // ---------------------------------------------------------------- framing

  /** The authorisation packet: type 0x01, the UTF-8 password, terminator 0x00. */
  function AuthPacket(password: string): (p: seq<Byte>)
    ensures |p| == |Encode(password)| + 2
    ensures p[0] == 0x01 && p[1..|p| - 1] == Encode(password) && p[|p| - 1] == 0x00
  {
    [0x01] + Encode(password) + [0x00]
  }

  /** A command packet: type 0x02, the command code, the UTF-8 payload, terminator 0x00. */
  function CommandPacket(code: Byte, data: string): (p: seq<Byte>)
    ensures |p| == |Encode(data)| + 3
    ensures p[0] == 0x02 && p[1] == code && p[2..|p| - 1] == Encode(data) && p[|p| - 1] == 0x00
  {
    [0x02, code] + Encode(data) + [0x00]
  }

  /** A frame as the receiving end of the delimiter-terminated channel reads it. */
  datatype Frame = AuthFrame(credential: seq<Byte>) | CommandFrame(code: Byte, payload: seq<Byte>)

  /** The first 0x00 at or after position `k`. */
  function ZeroFrom(p: seq<Byte>, k: nat): (r: Option<nat>)
    requires k <= |p|
    ensures r.Some? ==> k <= r.value < |p| && p[r.value] == 0
    ensures r.Some? ==> forall j :: k <= j < r.value ==> p[j] != 0
    ensures r.None? ==> forall j :: k <= j < |p| ==> p[j] != 0
    decreases |p| - k
  {
    if k == |p| then None
    else if p[k] == 0 then Some(k)
    else ZeroFrom(p, k + 1)
  }

  /**
   * Reads one frame from the front of a byte stream: the type byte, then
   * (for commands) the code byte, then the body up to the first 0x00.
   * Returns the frame and the bytes after its terminator.
   */
  function ReadFrame(p: seq<Byte>): Option<(Frame, seq<Byte>)> {
    if |p| >= 1 && p[0] == 0x01 then
      match ZeroFrom(p, 1)
      case None => None
      case Some(z) => Some((AuthFrame(p[1..z]), p[z + 1..]))
    else if |p| >= 2 && p[0] == 0x02 then
      match ZeroFrom(p, 2)
      case None => None
      case Some(z) => Some((CommandFrame(p[1], p[2..z]), p[z + 1..]))
    else None
  }

  /** The first zero at or after `k` is the one at `z` when nothing in between is zero. */
  lemma FirstZeroAt(p: seq<Byte>, k: nat, z: nat)
    requires k <= z < |p| && p[z] == 0
    requires forall j :: k <= j < z ==> p[j] != 0
    ensures ZeroFrom(p, k) == Some(z)
  {
  }

  /** Reading a command packet back yields its code and payload bytes, whatever follows it. */
  lemma ReadCommandPacket(code: Byte, data: string, more: seq<Byte>)
    requires '\0' !in data
    ensures ReadFrame(CommandPacket(code, data) + more) == Some((CommandFrame(code, Encode(data)), more))
  {
    var e := Encode(data);
    var p := CommandPacket(code, data) + more;
    var z := 2 + |e|;
    assert p == [0x02, code] + e + [0x00] + more;
    assert p[2..z] == e;
    assert p[z + 1..] == more;
    forall j | 2 <= j < z
      ensures p[j] != 0
    {
      assert p[j] == e[j - 2];
    }
    FirstZeroAt(p, 2, z);
  }

  /** Reading an authorisation packet back yields the password bytes, whatever follows it. */
  lemma ReadAuthPacket(password: string, more: seq<Byte>)
    requires '\0' !in password
    ensures ReadFrame(AuthPacket(password) + more) == Some((AuthFrame(Encode(password)), more))
  {
    var e := Encode(password);
    var p := AuthPacket(password) + more;
    var z := 1 + |e|;
    assert p == [0x01] + e + [0x00] + more;
    assert p[1..z] == e;
    assert p[z + 1..] == more;
    forall j | 1 <= j < z
      ensures p[j] != 0
    {
      assert p[j] == e[j - 1];
    }
    FirstZeroAt(p, 1, z);
  }

  /** A payload holding NUL cannot be carried intact: the frame ends at the embedded 0x00. */
  lemma NulPayloadIsCut(code: Byte, data: string, more: seq<Byte>)
    requires '\0' in data
    ensures ReadFrame(CommandPacket(code, data) + more) != Some((CommandFrame(code, Encode(data)), more))
  {
    var e := Encode(data);
    var p := CommandPacket(code, data) + more;
    assert p == [0x02, code] + e + [0x00] + more;
    assert 0 in e;
    var k :| 0 <= k < |e| && e[k] == 0;
    assert p[2 + k] == 0;
    var z := ZeroFrom(p, 2);
    assert z.Some? && z.value <= 2 + k;
    assert |p[2..z.value]| < |e|;
  }

  // ---------------------------------------------------------------- client

  /** What one `recv(4096)` produced. */
  datatype Recv = Received(text: string) | TimedOut | RecvFailed(reason: string)

  /** One `send_packet` followed by one `read_packet`. */
  datatype Exchange = Exchange(sendOk: bool, reply: Recv)

  /** The transport's behaviour during one call: TCP connect, the auth exchange, the command exchange. */
  datatype Link = Link(transportUp: bool, auth: Exchange, command: Exchange)

  datatype Client = Client(
    host: string,
    port: int,
    password: string,
    socket: Option<nat>,
    isAuthorized: bool,
    madeSockets: nat)

  /** The result of a client operation: next state, returned value, packets handed to `sendall`. */
  datatype Step<T> = Step(client: Client, value: T, sent: seq<seq<Byte>>)

  const TimeoutText: string := "\U{26A0}\U{FE0F} Timeout: No response"
  const ReceiveErrorPrefix: string := "\U{274C} Receive error: "
  const CouldNotConnect: string := "\U{274C} Could not connect or authorize."
  const UnknownCommandPrefix: string := "\U{274C} Unknown command: "

  /** The text the callers look for in a reply to detect that none came. */
  const NoResponseMarker: string := "No response received"

  /** The three environment variables the constructor falls back on. */
  datatype Env = Env(serverIp: Option<string>, rconPort: Option<string>, rconPw: Option<string>)

  /** `arg or fallback` for a string argument; a missing value is stored as "", which every later test treats like `None`. */
  function OrElse(arg: Option<string>, fallback: Option<string>): (v: string)
    ensures arg.Some? && arg.value != "" ==> v == arg.value
    ensures (arg.None? || arg.value == "") ==> (v == "" <==> fallback.None? || fallback.value == "")
  {
    if arg.Some? && arg.value != "" then arg.value
    else if fallback.Some? then fallback.value
    else ""
  }

  /**
   * The constructor: each falsy argument falls back on its environment
   * variable. The port goes through `int(...)`, which raises on a missing
   * variable or on text `parseInt` rejects; that case yields `None`.
   */
  function NewClient(host: Option<string>, port: Option<int>, password: Option<string>,
                     env: Env, parseInt: string -> Option<int>): (r: Option<Client>)
    ensures r.None? <==> (port.None? || port.value == 0) && (env.rconPort.None? || parseInt(env.rconPort.value).None?)
    ensures r.Some? ==> r.value.socket.None? && !r.value.isAuthorized && r.value.madeSockets == 0
    ensures r.Some? && port.Some? && port.value != 0 ==> r.value.port == port.value
    ensures r.Some? && (port.None? || port.value == 0) ==> Some(r.value.port) == parseInt(env.rconPort.value)
    ensures r.Some? ==> r.value.host == OrElse(host, env.serverIp) && r.value.password == OrElse(password, env.rconPw)
  {
    var p := if port.Some? && port.value != 0 then Some(port.value)
             else if env.rconPort.Some? then parseInt(env.rconPort.value)
             else None;
    if p.None? then None
    else Some(Client(OrElse(host, env.serverIp), p.value, OrElse(password, env.rconPw), None, false, 0))
  }

  /** Explicit non-empty arguments win over the environment, whatever it holds. */
  lemma ExplicitArgumentsWin(host: string, port: int, password: string, env: Env, parseInt: string -> Option<int>)
    requires host != "" && port != 0 && password != ""
    ensures NewClient(Some(host), Some(port), Some(password), env, parseInt)
            == Some(Client(host, port, password, None, false, 0))
    ensures HasCredentials(NewClient(Some(host), Some(port), Some(password), env, parseInt).value)
  {
  }

  /** With no arguments, the client has credentials exactly when all three variables are set, non-empty, and the port parses to a non-zero number. */
  lemma EnvironmentOnlyCredentials(env: Env, parseInt: string -> Option<int>)
    requires NewClient(None, None, None, env, parseInt).Some?
    ensures HasCredentials(NewClient(None, None, None, env, parseInt).value)
            <==> env.serverIp.Some? && env.serverIp.value != "" && env.rconPw.Some? && env.rconPw.value != ""
                 && parseInt(env.rconPort.value) != Some(0)
  {
  }

  /** `read_packet`: the decoded reply, or a sentinel for a timeout or another receive error. */
  function ReadPacket(r: Recv): (text: string)
    ensures r.Received? ==> text == r.text
    ensures r.TimedOut? ==> text == TimeoutText
    ensures r.RecvFailed? ==>
              |text| >= |ReceiveErrorPrefix| && text[..|ReceiveErrorPrefix|] == ReceiveErrorPrefix
              && text[|ReceiveErrorPrefix|..] == r.reason
  {
    match r
    case Received(text) => text
    case TimedOut => TimeoutText
    case RecvFailed(reason) => ReceiveErrorPrefix + reason
  }

  /** A timeout never reads like a receive error, whatever the error's text. */
  lemma TimeoutDistinctFromReceiveError(reason: string)
    ensures ReadPacket(TimedOut) != ReadPacket(RecvFailed(reason))
  {
    var e := ReadPacket(RecvFailed(reason));
    assert e[0] == '\U{274C}';
    assert TimeoutText[0] == '\U{26A0}';
  }

  /**
   * The timeout sentinel does not contain "No response received", the text
   * callers look for to detect a missing reply, so a timed-out read passes
   * their check as if it were data.
   */
  lemma TimeoutEscapesNoResponseCheck()
    ensures !Contains(TimeoutText, NoResponseMarker)
  {
    var p := NoResponseMarker;
    forall i | 0 <= i <= |TimeoutText| - |p|
      ensures TimeoutText[i] != p[0]
    {
      assert i in {0, 1, 2, 3};
    }
    FirstCharNowhere(TimeoutText, p);
  }

  /** `send_packet`: a failed `sendall` clears the authorised flag and nothing else. */
  function SendPacket(c: Client, ok: bool): (r: Client)
    ensures SameConnection(r, c)
    ensures r.isAuthorized == (c.isAuthorized && ok)
  {
    if ok then c else c.(isAuthorized := false)
  }

  predicate HasCredentials(c: Client) {
    c.host != "" && c.port != 0 && c.password != ""
  }

  /** Only a client with an open socket can be authorised. */
  predicate Valid(c: Client) {
    c.isAuthorized ==> c.socket.Some?
  }

  /** Socket, handle count and credentials agree. */
  predicate SameConnection(a: Client, b: Client) {
    a.socket == b.socket && a.madeSockets == b.madeSockets
    && a.host == b.host && a.port == b.port && a.password == b.password
  }

  /** `authorize`. */
  function Authorize(c: Client, x: Exchange): (r: Step<bool>)
    ensures SameConnection(r.client, c)
    ensures c.isAuthorized ==> r == Step(c, true, [])
    ensures !c.isAuthorized ==> r.sent == [AuthPacket(c.password)]
    ensures !c.isAuthorized ==> (r.value <==> Contains(ReadPacket(x.reply), "Accepted"))
    ensures r.client.isAuthorized == r.value
  {
    if c.isAuthorized then
      Step(c, true, [])
    else
      var c1 := SendPacket(c, x.sendOk);
      if Contains(ReadPacket(x.reply), "Accepted") then
        Step(c1.(isAuthorized := true), true, [AuthPacket(c.password)])
      else
        Step(c1, false, [AuthPacket(c.password)])
  }

  /** Authorising an authorised client again sends nothing and succeeds. */
  lemma AuthorizeIdempotent(c: Client, x: Exchange, y: Exchange)
    requires Authorize(c, x).value
    ensures Authorize(Authorize(c, x).client, y) == Step(Authorize(c, x).client, true, [])
  {
  }

  /** `connect`: check credentials, create a new socket, connect it, authorise. */
  function Connect(c: Client, link: Link): (r: Step<bool>)
    ensures !HasCredentials(c) ==> r == Step(c, false, [])
    ensures HasCredentials(c) ==> r.client.socket == Some(c.madeSockets) && r.client.madeSockets == c.madeSockets + 1
    ensures HasCredentials(c) && !link.transportUp ==>
              !r.value && r.sent == [] && r.client.isAuthorized == c.isAuthorized
    ensures r.client.isAuthorized == (r.value || (c.isAuthorized && !(HasCredentials(c) && link.transportUp)))
    ensures r.value ==> HasCredentials(c) && link.transportUp
    ensures r.value && !c.isAuthorized ==>
              r.sent == [AuthPacket(c.password)] && Contains(ReadPacket(link.auth.reply), "Accepted")
    ensures c.isAuthorized && HasCredentials(c) && link.transportUp ==> r.value && r.sent == []
    ensures r.client.host == c.host && r.client.port == c.port && r.client.password == c.password
  {
    if !HasCredentials(c) then
      Step(c, false, [])
    else
      var c1 := c.(socket := Some(c.madeSockets), madeSockets := c.madeSockets + 1);
      if !link.transportUp then Step(c1, false, [])
      else Authorize(c1, link.auth)
  }

  predicate NeedsReconnect(c: Client) {
    c.socket.None? || !c.isAuthorized
  }

  /** The packet `send_command` writes for a known command. */
  function PacketFor(name: string, data: string): seq<Byte>
    requires CommandByte(name).Some?
  {
    CommandPacket(CommandByte(name).value, data)
  }

  /** `send_command`. */
  function SendCommand(c: Client, name: string, data: string, link: Link): (r: Step<string>)
    ensures CommandByte(name).None? ==> r == Step(c, UnknownCommandPrefix + name, [])
    ensures CommandByte(name).Some? && !NeedsReconnect(c) ==>
              r.sent == [PacketFor(name, data)]
              && r.value == ReadPacket(link.command.reply)
              && SameConnection(r.client, c)
    ensures (r.client.madeSockets > c.madeSockets) <==>
              CommandByte(name).Some? && NeedsReconnect(c) && HasCredentials(c)
    ensures CommandByte(name).Some? && NeedsReconnect(c) && !Connect(c, link).value ==>
              r.value == CouldNotConnect && r.client == Connect(c, link).client
              && r.sent == Connect(c, link).sent
    ensures CommandByte(name).Some? && NeedsReconnect(c) && Connect(c, link).value ==>
              r.sent == Connect(c, link).sent + [PacketFor(name, data)]
              && r.value == ReadPacket(link.command.reply)
    ensures CommandByte(name).Some? && (!NeedsReconnect(c) || Connect(c, link).value) ==>
              r.client.isAuthorized == link.command.sendOk && r.client.socket.Some?
    ensures r.client.host == c.host && r.client.port == c.port && r.client.password == c.password
  {
    match CommandByte(name)
    case None => Step(c, UnknownCommandPrefix + name, [])
    case Some(code) =>
      var s := if NeedsReconnect(c) then Connect(c, link) else Step(c, true, []);
      if !s.value then
        Step(s.client, CouldNotConnect, s.sent)
      else
        var packet := CommandPacket(code, data);
        Step(SendPacket(s.client, link.command.sendOk), ReadPacket(link.command.reply), s.sent + [packet])
  }

  /**
   * `close`: when a socket is present it is dropped and the authorised flag
   * cleared in the `finally` block, so an exception from the underlying close
   * makes no difference.
   */
  function Close(c: Client): (r: Client)
    ensures r.socket.None?
    ensures Valid(c) ==> !r.isAuthorized
    ensures r.madeSockets == c.madeSockets && r.host == c.host && r.port == c.port && r.password == c.password
  {
    if c.socket.Some? then c.(socket := None, isAuthorized := false) else c
  }

  /** Every operation keeps "authorised only with a socket". */
  lemma ValidPreserved(c: Client, name: string, data: string, link: Link)
    requires Valid(c)
    ensures Valid(Connect(c, link).client)
    ensures Valid(SendCommand(c, name, data, link).client)
    ensures Valid(Close(c))
  {
  }

  /**
   * Once a command has gone out on an authorised connection, the next
   * command goes out alone: no reconnect and no second authorisation packet.
   */
  lemma NoReauthorisationWhileAuthorised(c: Client, n1: string, d1: string, l1: Link, n2: string, d2: string, l2: Link)
    requires Valid(c) && CommandByte(n1).Some? && CommandByte(n2).Some?
    requires SendCommand(c, n1, d1, l1).client.isAuthorized
    ensures SendCommand(SendCommand(c, n1, d1, l1).client, n2, d2, l2).sent == [PacketFor(n2, d2)]
  {
  }
}

=== FILE: rcon_send_command.dfy ===
/**
 * The `/rcon` admin command: a message gate for the commands that need one,
 * autocomplete over the offered commands, and one connect-and-send through
 * the RCON client.
 */
module RconSendCommand {
  import opened Wrappers
  import opened Text
  import opened Utf8
  import opened RconClient

  const MessageRequired: set<string> := {"announce", "directmessage", "ban"}

  const Commands: set<string> := MessageRequired + {"playerlist"}

  /** Every offered command has a code in the client's command table. */
  lemma CommandsHaveCodes(cmd: string)
    requires cmd in Commands
    ensures CommandByte(cmd).Some?
  {
    assert CommandTable[0].0 == "announce" && CommandTable[1].0 == "directmessage";
    assert CommandTable[5].0 == "ban" && CommandTable[7].0 == "playerlist";
  }

  /** No element occurs twice. */
  predicate Distinct(s: seq<string>) {
    forall i, j :: 0 <= i < j < |s| ==> s[i] != s[j]
  }

  /**
   * An iteration order of `COMMANDS`: each command exactly once. The order
   * itself is Python's set order, which depends on string hashing, so the
   * model takes it as a parameter.
   */
  predicate Enumerates(order: seq<string>) {
    && Distinct(order)
    && (forall i :: 0 <= i < |order| ==> order[i] in Commands)
    && (forall cmd :: cmd in Commands ==> cmd in order)
  }

  /**
   * `rcon_autocomplete`: walking `order`, keep the commands whose lower-case
   * form contains the lower-cased input.
   */
  function Autocomplete(current: string, order: seq<string>): (choices: seq<string>)
    ensures forall cmd :: cmd in choices <==> cmd in order && Contains(Lower(cmd), Lower(current))
    ensures |choices| <= |order|
    ensures Distinct(order) ==> Distinct(choices)
  {
    if |order| == 0 then []
    else
      var rest := Autocomplete(current, order[1..]);
      assert forall cmd :: cmd in order <==> cmd == order[0] || cmd in order[1..];
      if Contains(Lower(order[0]), Lower(current)) then
        assert Distinct(order) ==> order[0] !in order[1..];
        [order[0]] + rest
      else rest
  }

  /** Over an iteration order of the command set, the choices are exactly the matching commands, each once. */
  lemma AutocompleteOverCommands(current: string, order: seq<string>, cmd: string)
    requires Enumerates(order)
    ensures cmd in Autocomplete(current, order) <==> cmd in Commands && Contains(Lower(cmd), Lower(current))
    ensures Distinct(Autocomplete(current, order))
  {
  }

  /** An empty input offers every command, in iteration order. */
  lemma {:induction false} EmptyInputOffersAll(order: seq<string>)
    ensures Autocomplete("", order) == order
  {
    if |order| > 0 {
      assert OccursAt(Lower(order[0]), Lower(""), 0);
      EmptyInputOffersAll(order[1..]);
      assert order == [order[0]] + order[1..];
    }
  }

  /** What the command does: ephemeral replies, public channel posts, packets handed to the transport. */
  datatype Outcome = Outcome(replies: seq<string>, posts: seq<string>, sent: seq<seq<Byte>>)

  function MissingMessageText(command: string): string {
    "\U{26A0}\U{FE0F} **A message is required for the `" + command + "` command!**"
  }

  const ConnectFailedText: string := "\U{274C} **Failed to connect to RCON server.**"

  /** A missing or whitespace-only message. */
  predicate IsBlankMessage(message: Option<string>) {
    message.None? || Strip(message.value) == ""
  }

  /** `message or ""`. */
  function Payload(message: Option<string>): string {
    match message
    case None => ""
    case Some(m) => m
  }

  /** The ephemeral reply carrying the server's response in a code block. */
  function ResponseText(response: string): string {
    "Response: \n```" + response + "```"
  }

  /** The public post that follows a successful `announce`. */
  function AnnouncementText(message: string): string {
    "\U{1F4E2} Announcement posted via RCON: *" + message + "*"
  }

  /**
   * `rcon`: the gate, then a connect on a fresh client (`c`) through `connectLink`
   * and one `send_command` through `commandLink`.
   */
  function Rcon(command: string, message: Option<string>, c: Client, connectLink: Link, commandLink: Link)
    : (r: Outcome)
    ensures command in MessageRequired && IsBlankMessage(message) ==>
              r == Outcome([MissingMessageText(command)], [], [])
    ensures |r.replies| == 1
    ensures |r.posts| <= 1
    ensures |r.posts| == 1 <==>
              !(command in MessageRequired && IsBlankMessage(message)) && Connect(c, connectLink).value
              && command == "announce"
    ensures |r.posts| == 1 ==> message.Some? && r.posts[0] == AnnouncementText(message.value)
    ensures !(command in MessageRequired && IsBlankMessage(message)) && Connect(c, connectLink).value ==>
              var reply := SendCommand(Connect(c, connectLink).client, command, Payload(message), commandLink);
              r.replies == [ResponseText(reply.value)] && r.sent == Connect(c, connectLink).sent + reply.sent
    ensures !(command in MessageRequired && IsBlankMessage(message)) && Connect(c, connectLink).value
            && CommandByte(command).Some? && !NeedsReconnect(Connect(c, connectLink).client) ==>
              r.sent == Connect(c, connectLink).sent + [PacketFor(command, Payload(message))]
    ensures !(command in MessageRequired && IsBlankMessage(message)) && !Connect(c, connectLink).value ==>
              r == Outcome([ConnectFailedText], [], Connect(c, connectLink).sent)
  {
    if command in MessageRequired && IsBlankMessage(message) then
      Outcome([MissingMessageText(command)], [], [])
    else
      var s := Connect(c, connectLink);
      if s.value then
        var reply := SendCommand(s.client, command, Payload(message), commandLink);
        var posts := if command == "announce" then [AnnouncementText(message.value)] else [];
        Outcome([ResponseText(reply.value)], posts, s.sent + reply.sent)
      else
        Outcome([ConnectFailedText], [], s.sent)
  }

  /**
   * A successful connect leaves the client authorised, so the command goes out
   * without a reconnect: exactly the connect's packets, then the command packet.
   */
  lemma ConnectedCommandGoesOutOnce(command: string, message: Option<string>, c: Client, l1: Link, l2: Link)
    requires command in Commands && !(command in MessageRequired && IsBlankMessage(message))
    requires Connect(c, l1).value
    ensures CommandByte(command).Some?
            && Rcon(command, message, c, l1, l2).sent == Connect(c, l1).sent + [PacketFor(command, Payload(message))]
  {
    CommandsHaveCodes(command);
  }
}

=== FILE: restarts.dfy ===
/**
 * `/restarts`: the two announced restart instants, tomorrow (UTC) at 17:00
 * and at 05:00, as UNIX seconds.
 */
module Restarts {
  const Day: int := 86400
  const Hour: int := 3600

  /** `now.replace(hour=h, minute=0, second=0, microsecond=0) + timedelta(days=1)`, as a UNIX timestamp. */
  function TomorrowAt(now: int, hour: int): (t: int)
    requires 0 <= hour < 24
    ensures t % Day == hour * Hour
    ensures t / Day == now / Day + 1
  {
    now - now % Day + hour * Hour + Day
  }

  /** The two instants `restarts` shows: 17:00 and 05:00 tomorrow. */
  function RestartTimes(now: int): (ts: (int, int))
    ensures ts.0 > now && ts.1 > now
    ensures ts.0 - ts.1 == 12 * Hour
    ensures ts.0 % Hour == 0 && ts.1 % Hour == 0
    ensures ts.0 % Day == 17 * Hour && ts.1 % Day == 5 * Hour
    ensures ts.0 / Day == now / Day + 1 && ts.1 / Day == now / Day + 1
  {
    (TomorrowAt(now, 17), TomorrowAt(now, 5))
  }

  /** The instants depend only on the day of `now`, not on the time of day. */
  lemma SameDaySameTimes(a: int, b: int)
    requires a / Day == b / Day
    ensures RestartTimes(a) == RestartTimes(b)
  {
  }
}

=== FILE: store_dino.dfy ===
/**
 * `/store_dino`: a paired user's current dinosaur is read over RCON and,
 * when it is grown and rested enough, inserted into the storage table; the
 * first returned row's id is the voucher.
 *
 * The stats pattern and the `float` conversions are the parameter `stats`,
 * which yields groups 3 to 6 of the pattern's leftmost match, or None.
 */
module StoreDino {
  import opened Wrappers
  import opened Text
  import VerifyPaired
  import RconClient

  /** Groups 3 (class), 4 (growth), 5 (health) and 6 (stamina) of the stats pattern. */
  datatype Stats = Stats(dinoClass: string, growth: real, health: real, stamina: real)

  /** The dict `rcon_fetch_dino_data` returns. */
  datatype DinoRecord = DinoRecord(steamId: string, dinoClass: string, growth: real, health: real,
                                   stamina: real, storedAt: string)

  /** The row handed to the insert: the record plus the Discord id. */
  datatype StoredRow = StoredRow(record: DinoRecord, discordId: string)

  /**
   * `rcon_fetch_dino_data`: None when the connect fails, the reply is empty or
   * holds the no-response marker, or the pattern does not match.
   */
  function FetchDinoData(connected: bool, response: string, steamId: string,
                         stats: string -> Option<Stats>, storedAt: string): (r: Option<DinoRecord>)
    ensures r.None? <==>
              !connected || response == "" || Contains(response, RconClient.NoResponseMarker) || stats(response).None?
    ensures r.Some? ==>
              var m := stats(response).value;
              r.value == DinoRecord(steamId, m.dinoClass, m.growth, m.health, m.stamina, storedAt)
  {
    if !connected || response == "" || Contains(response, RconClient.NoResponseMarker) then None
    else
      match stats(response)
      case Some(m) => Some(DinoRecord(steamId, m.dinoClass, m.growth, m.health, m.stamina, storedAt))
      case None => None
  }

  /** The storage requirement: refused when growth is below 0.75 or stamina below 1.00. */
  predicate Eligible(r: DinoRecord) {
    !(r.growth < 0.75 || r.stamina < 1.0)
  }

  /** The insert's result: the returned rows' ids, an `APIError`, or another exception. */
  datatype InsertResult = Inserted(ids: seq<string>) | ApiFailure(text: string) | OtherFailure(text: string)

  /** The replies sent, whether the RCON fetch was made, and the row handed to the insert. */
  datatype StoreOutcome = StoreOutcome(replies: seq<string>, fetched: bool, inserted: Option<StoredRow>)

  const FetchingText: string := "\U{23F3} Fetching dino stats..."
  const FetchFailedText: string := "\U{274C} Failed to retrieve dino data. Ensure you're logged in and try again."
  const RequirementsText: string :=
    "\U{274C} Your dinosaur does not meet the storage requirements (Growth: 1.0, Stamina: 1.00)."
  const StoreFailedText: string := "\U{274C} Failed to store dino. Try again later."

  function VoucherText(id: string): string {
    "\U{2705} Dino stored successfully!\n\U{1F516} **Voucher**\n ```" + id + "```"
  }

  /** The reply to the insert's result. */
  function InsertReply(ins: InsertResult): string {
    match ins
    case Inserted(ids) => if |ids| > 0 then VoucherText(ids[0]) else StoreFailedText
    case ApiFailure(e) => "\U{274C} Database error:\n```" + e + "```"
    case OtherFailure(e) => "\U{274C} Unexpected error:\n```" + e + "```"
  }

  /**
   * `store_dino` for a Discord interaction: `check` is what `verify_paired`
   * returned; `connected` and `response` are the RCON fetch's connect result
   * and reply; `ins` is the insert's result.
   */
  function StoreDinoFor(discordId: string, check: VerifyPaired.Verdict, connected: bool, response: string,
                        stats: string -> Option<Stats>, storedAt: string, ins: InsertResult): (r: StoreOutcome)
    ensures (check.steamId.None? || check.steamId.value == "") ==>
              r == StoreOutcome([check.error.GetOr("")], false, None)
    ensures r.inserted.Some? <==>
              check.steamId.Some? && check.steamId.value != ""
              && FetchDinoData(connected, response, check.steamId.value, stats, storedAt).Some?
              && Eligible(FetchDinoData(connected, response, check.steamId.value, stats, storedAt).value)
    ensures r.inserted.Some? ==>
              r.inserted.value ==
                StoredRow(FetchDinoData(connected, response, check.steamId.value, stats, storedAt).value, discordId)
              && r.replies == [FetchingText, InsertReply(ins)]
    ensures r.fetched <==> check.steamId.Some? && check.steamId.value != ""
    ensures check.steamId.Some? && check.steamId.value != ""
            && FetchDinoData(connected, response, check.steamId.value, stats, storedAt).None? ==>
              r == StoreOutcome([FetchingText, FetchFailedText], true, None)
    ensures check.steamId.Some? && check.steamId.value != ""
            && FetchDinoData(connected, response, check.steamId.value, stats, storedAt).Some?
            && !Eligible(FetchDinoData(connected, response, check.steamId.value, stats, storedAt).value) ==>
              r == StoreOutcome([FetchingText, RequirementsText], true, None)
  {
    match check.steamId
    case None => StoreOutcome([check.error.GetOr("")], false, None)
    case Some(steamId) =>
      if steamId == "" then StoreOutcome([check.error.GetOr("")], false, None)
      else
        match FetchDinoData(connected, response, steamId, stats, storedAt)
        case None => StoreOutcome([FetchingText, FetchFailedText], true, None)
        case Some(rec) =>
          if rec.growth < 0.75 || rec.stamina < 1.0 then
            StoreOutcome([FetchingText, RequirementsText], true, None)
          else
            StoreOutcome([FetchingText, InsertReply(ins)], true, Some(StoredRow(rec, discordId)))
  }

  /** An unpaired user is told so and nothing is fetched or stored. */
  lemma UnpairedStoresNothing(discordId: string, connected: bool, response: string,
                              stats: string -> Option<Stats>, storedAt: string, ins: InsertResult)
    ensures StoreDinoFor(discordId, VerifyPaired.Verify(VerifyPaired.Rows([])), connected, response,
                         stats, storedAt, ins)
            == StoreOutcome([VerifyPaired.NotPairedText], false, None)
  {
  }

  /** A successful insert's voucher is the first returned row's id. */
  lemma VoucherIsFirstId(ids: seq<string>)
    requires |ids| > 0
    ensures InsertReply(Inserted(ids)) == VoucherText(ids[0])
  {
  }
}

=== FILE: text.dfy ===
/**
 * Python `str` operations the bot relies on, over Dafny strings (sequences of
 * Unicode scalar values): substring search (`in`, `find`), `split`/`join`,
 * `strip`, ASCII case mapping (`upper`, `lower`, `capitalize`), the
 * code-point ordering behind `<` and `<=`, and `readlines`.
 */
module Text {
  import opened Wrappers

  /** `p` occurs in `s` starting at index `i`. */
  predicate OccursAt(s: string, p: string, i: nat) {
    i + |p| <= |s| && s[i..i + |p|] == p
  }

  /** The first index at or after `k` where `p` occurs in `s`, if any. */
  function IndexFrom(s: string, p: string, k: nat): (r: Option<nat>)
    requires k <= |s|
    ensures r.Some? ==> k <= r.value && OccursAt(s, p, r.value)
    ensures r.Some? ==> forall j :: k <= j < r.value ==> !OccursAt(s, p, j)
    ensures r.None? ==> forall j :: k <= j ==> !OccursAt(s, p, j)
    decreases |s| - k
  {
    if k + |p| > |s| then None
    else if s[k..k + |p|] == p then Some(k)
    else IndexFrom(s, p, k + 1)
  }

  /** Python's `s.find(p)`, with `None` for -1. */
  function IndexOf(s: string, p: string): Option<nat> {
    IndexFrom(s, p, 0)
  }

  /** Python's `p in s`. */
  predicate Contains(s: string, p: string) {
    IndexOf(s, p).Some?
  }

  /** A slice of `s` occurs in `s` where it was cut. */
  lemma SliceOccurs(s: string, a: nat, b: nat)
    requires a <= b <= |s|
    ensures OccursAt(s, s[a..b], a)
  {
  }

  lemma OccursContains(s: string, p: string, i: nat)
    requires OccursAt(s, p, i)
    ensures Contains(s, p)
  {
    ContainsIff(s, p);
  }

  lemma ContainsIff(s: string, p: string)
    ensures Contains(s, p) <==> exists i: nat :: OccursAt(s, p, i)
  {
  }

  /** A pattern whose first character appears at no candidate position does not occur. */
  lemma FirstCharNowhere(s: string, p: string)
    requires |p| > 0
    requires forall i :: 0 <= i <= |s| - |p| ==> s[i] != p[0]
    ensures !Contains(s, p)
  {
    forall j: nat
      ensures !OccursAt(s, p, j)
    {
      if j + |p| <= |s| {
        assert s[j..j + |p|][0] == s[j];
      }
    }
    AbsentFrom(s, p, 0);
  }

  /** When `p` occurs nowhere at or after `k`, the search from `k` finds nothing. */
  lemma {:induction false} AbsentFrom(s: string, p: string, k: nat)
    requires k <= |s|
    requires forall j: nat :: k <= j ==> !OccursAt(s, p, j)
    ensures IndexFrom(s, p, k).None?
    decreases |s| - k
  {
    if k + |p| <= |s| {
      assert !OccursAt(s, p, k);
      AbsentFrom(s, p, k + 1);
    }
  }

  /** Python's `s.split(sep)` for a non-empty separator. */
  function Split(s: string, sep: string): (parts: seq<string>)
    requires |sep| > 0
    ensures |parts| >= 1
    decreases |s|
  {
    match IndexOf(s, sep)
    case None => [s]
    case Some(i) => [s[..i]] + Split(s[i + |sep|..], sep)
  }

  /** Python's `sep.join(parts)`. */
  function Join(parts: seq<string>, sep: string): string {
    if |parts| == 0 then ""
    else if |parts| == 1 then parts[0]
    else parts[0] + sep + Join(parts[1..], sep)
  }

  /** Joining the pieces of a split with the same separator gives back the string. */
  lemma {:induction false} JoinSplit(s: string, sep: string)
    requires |sep| > 0
    ensures Join(Split(s, sep), sep) == s
    decreases |s|
  {
    var r := IndexOf(s, sep);
    if r.Some? {
      var i := r.value;
      assert OccursAt(s, sep, i);
      var rest := s[i + |sep|..];
      var tail := Split(rest, sep);
      JoinSplit(rest, sep);
      var parts := Split(s, sep);
      assert parts == [s[..i]] + tail;
      assert |parts| >= 2 && parts[0] == s[..i] && parts[1..] == tail;
      assert Join(parts, sep) == s[..i] + sep + Join(tail, sep);
      assert s == s[..i] + sep + rest;
    }
  }

  /** The first piece of a split is the text before the first separator, or all of `s`. */
  lemma SplitFirstPiece(s: string, sep: string)
    requires |sep| > 0
    ensures !Contains(Split(s, sep)[0], sep)
    ensures Split(s, sep)[0] == s <==> !Contains(s, sep)
    ensures Contains(s, sep) ==> OccursAt(s, sep, |Split(s, sep)[0]|)
    ensures Split(s, sep)[0] == s[..|Split(s, sep)[0]|]
  {
    match IndexOf(s, sep)
    case None =>
    case Some(i) =>
      assert OccursAt(s, sep, i);
      var a := s[..i];
      assert Split(s, sep)[0] == a;
      if Contains(a, sep) {
        var j := IndexOf(a, sep).value;
        assert OccursAt(a, sep, j);
        assert j + |sep| <= i <= |s|;
        var w, v := a[j..j + |sep|], s[j..j + |sep|];
        assert forall t :: 0 <= t < |sep| ==> w[t] == v[t];
        assert w == v;
        assert OccursAt(s, sep, j);
        assert false;
      }
      assert |a| < |s| by { assert OccursAt(s, sep, i); }
  }

  /** An occurrence with none before it is the one `find` reports. */
  lemma IndexOfFirst(s: string, p: string, i: nat)
    requires OccursAt(s, p, i) && forall j :: 0 <= j < i ==> !OccursAt(s, p, j)
    ensures IndexOf(s, p) == Some(i)
  {
  }

  /** A one-character pattern absent from `a` does not start inside `a` in `a + t`. */
  lemma AbsentFromFront(a: string, t: string, sep: string)
    requires |sep| == 1 && !Contains(a, sep)
    ensures forall j :: 0 <= j < |a| ==> !OccursAt(a + t, sep, j)
  {
    forall j | 0 <= j < |a|
      ensures !OccursAt(a + t, sep, j)
    {
      if OccursAt(a + t, sep, j) {
        assert a[j..j + 1] == (a + t)[j..j + 1];
        OccursContains(a, sep, j);
      }
    }
  }

  /** A join of two or more parts on a one-character separator splits first after its first part. */
  lemma SplitJoinHead(parts: seq<string>, sep: string)
    requires |sep| == 1 && |parts| >= 2
    requires !Contains(parts[0], sep)
    ensures Split(Join(parts, sep), sep) == [parts[0]] + Split(Join(parts[1..], sep), sep)
  {
    var a, t := parts[0], sep + Join(parts[1..], sep);
    var s := Join(parts, sep);
    assert s == a + t;
    assert OccursAt(s, sep, |a|) by { assert s[|a|..|a| + 1] == sep; }
    AbsentFromFront(a, t, sep);
    IndexOfFirst(s, sep, |a|);
    assert s[|a| + |sep|..] == Join(parts[1..], sep);
    assert s[..|a|] == a;
  }

  /** Splitting a join on a one-character separator that no part contains gives back the parts. */
  lemma {:induction false} SplitJoin(parts: seq<string>, sep: string)
    requires |sep| == 1 && |parts| >= 1
    requires forall k :: 0 <= k < |parts| ==> !Contains(parts[k], sep)
    ensures Split(Join(parts, sep), sep) == parts
    decreases |parts|
  {
    if |parts| == 1 {
      assert Join(parts, sep) == parts[0];
    } else {
      SplitJoinHead(parts, sep);
      SplitJoin(parts[1..], sep);
      assert parts == [parts[0]] + parts[1..];
    }
  }

  /**
   * The ASCII characters `str.strip()` removes: space, tab, line feed, line
   * and form feed, carriage return, and the separators U+001C to U+001F.
   */
  predicate IsSpace(c: char) {
    c == ' ' || ('\t' <= c <= '\r') || ('\U{001C}' <= c <= '\U{001F}')
  }

  /** Python's `s.lstrip()`. */
  function TrimStart(s: string): (r: string)
    ensures |r| <= |s| && r == s[|s| - |r|..]
    ensures |r| > 0 ==> !IsSpace(r[0])
    ensures forall i :: 0 <= i < |s| - |r| ==> IsSpace(s[i])
    decreases |s|
  {
    if |s| > 0 && IsSpace(s[0]) then TrimStart(s[1..]) else s
  }

  /** Python's `s.rstrip()`. */
  function TrimEnd(s: string): (r: string)
    ensures |r| <= |s| && r == s[..|r|]
    ensures |r| > 0 ==> !IsSpace(r[|r| - 1])
    ensures forall i :: |r| <= i < |s| ==> IsSpace(s[i])
    decreases |s|
  {
    if |s| > 0 && IsSpace(s[|s| - 1]) then TrimEnd(s[..|s| - 1]) else s
  }

  /** Python's `s.strip()`. */
  function Strip(s: string): string {
    TrimEnd(TrimStart(s))
  }

  /** `s` neither starts nor ends with whitespace. */
  predicate Unpadded(s: string) {
    |s| == 0 || (!IsSpace(s[0]) && !IsSpace(s[|s| - 1]))
  }

  /** A string that neither starts nor ends with whitespace is left alone by `strip`. */
  lemma StripUnpadded(s: string)
    requires Unpadded(s)
    ensures Strip(s) == s
  {
  }

  /** Python's `s.strip() == ""`: every character is whitespace. */
  predicate IsBlank(s: string) {
    forall i :: 0 <= i < |s| ==> IsSpace(s[i])
  }

  function UpperChar(c: char): char {
    if 'a' <= c <= 'z' then (c as int - 32) as char else c
  }

  function LowerChar(c: char): char {
    if 'A' <= c <= 'Z' then (c as int + 32) as char else c
  }

  /** Python's `s.upper()` on ASCII letters. */
  function Upper(s: string): string {
    seq(|s|, i requires 0 <= i < |s| => UpperChar(s[i]))
  }

  /** Python's `s.lower()` on ASCII letters. */
  function Lower(s: string): string {
    seq(|s|, i requires 0 <= i < |s| => LowerChar(s[i]))
  }

  /** Python's `s.capitalize()` on ASCII letters: first letter upper case, the rest lower case. */
  function Capitalize(s: string): string {
    if |s| == 0 then "" else [UpperChar(s[0])] + Lower(s[1..])
  }

  /** Capitalising twice is the same as capitalising once. */
  lemma CapitalizeIdempotent(s: string)
    ensures Capitalize(Capitalize(s)) == Capitalize(s)
  {
    if |s| > 0 {
      var c := Capitalize(s);
      assert c[1..] == Lower(s[1..]);
      assert Lower(Lower(s[1..])) == Lower(s[1..]);
    }
  }

  /** Python's `a < b` on `str`: lexicographic order of code points. */
  predicate LexLess(a: string, b: string)
    decreases |a|
  {
    if |b| == 0 then false
    else if |a| == 0 then true
    else if a[0] != b[0] then a[0] < b[0]
    else LexLess(a[1..], b[1..])
  }

  /** Python's `a <= b` on `str`. */
  predicate LexLeq(a: string, b: string) {
    a == b || LexLess(a, b)
  }

  lemma {:induction false} LexLessIrreflexive(a: string)
    ensures !LexLess(a, a)
    decreases |a|
  {
    if |a| > 0 {
      LexLessIrreflexive(a[1..]);
    }
  }

  lemma {:induction false} LexLessTransitive(a: string, b: string, c: string)
    requires LexLess(a, b) && LexLess(b, c)
    ensures LexLess(a, c)
    decreases |a|
  {
    if |a| > 0 && a[0] == b[0] && b[0] == c[0] {
      LexLessTransitive(a[1..], b[1..], c[1..]);
    }
  }

  /** Any two strings are equal or ordered one way. */
  lemma {:induction false} LexTrichotomy(a: string, b: string)
    ensures a == b || LexLess(a, b) || LexLess(b, a)
    decreases |a|
  {
    if |a| > 0 && |b| > 0 && a[0] == b[0] {
      LexTrichotomy(a[1..], b[1..]);
      if a[1..] == b[1..] {
        assert a == [a[0]] + a[1..] && b == [b[0]] + b[1..];
      }
    }
  }

  lemma LexLeqTransitive(a: string, b: string, c: string)
    requires LexLeq(a, b) && LexLeq(b, c)
    ensures LexLeq(a, c)
  {
    if LexLess(a, b) && LexLess(b, c) {
      LexLessTransitive(a, b, c);
    }
  }

  /** `<=` is the negation of `>`. */
  lemma LexLeqNotLess(a: string, b: string)
    ensures LexLeq(a, b) <==> !LexLess(b, a)
  {
    LexTrichotomy(a, b);
    LexLessIrreflexive(a);
    if LexLess(a, b) && LexLess(b, a) {
      LexLessTransitive(a, b, a);
    }
  }

  predicate IsDigit(c: char) {
    '0' <= c <= '9'
  }

  predicate AllDigits(s: string) {
    forall i :: 0 <= i < |s| ==> IsDigit(s[i])
  }

  /** Concatenation of a sequence of strings. */
  function Concat(pieces: seq<string>): string {
    if |pieces| == 0 then "" else pieces[0] + Concat(pieces[1..])
  }

  /** No newline comes before the first place "\n" occurs. */
  lemma NoBreakBefore(s: string, i: nat)
    requires i <= |s| && forall j :: 0 <= j < i ==> !OccursAt(s, "\n", j)
    ensures forall m :: 0 <= m < i ==> s[m] != '\n'
  {
    forall m | 0 <= m < i
      ensures s[m] != '\n'
    {
      assert !OccursAt(s, "\n", m);
      assert s[m..m + 1] == [s[m]];
    }
  }

  /**
   * Python's `readlines()` on text: pieces that end just after each
   * newline, plus an unterminated last piece when there is one.
   */
  function ReadLines(s: string): (lines: seq<string>)
    ensures Concat(lines) == s
    ensures forall k :: 0 <= k < |lines| ==> |lines[k]| > 0
    ensures forall k :: 0 <= k < |lines| - 1 ==> lines[k][|lines[k]| - 1] == '\n'
    ensures forall k, m :: 0 <= k < |lines| && 0 <= m < |lines[k]| - 1 ==> lines[k][m] != '\n'
    decreases |s|
  {
    match IndexOf(s, "\n")
    case None =>
      NoBreakBefore(s, |s|);
      if |s| == 0 then [] else [s]
    case Some(i) =>
      assert OccursAt(s, "\n", i);
      NoBreakBefore(s, i);
      var rest := ReadLines(s[i + 1..]);
      assert ([s[..i + 1]] + rest)[1..] == rest;
      assert s == s[..i + 1] + s[i + 1..];
      [s[..i + 1]] + rest
  }

  /**
   * The newline translation of a file opened in text mode: "\r\n" and a lone
   * "\r" each become "\n"; every other character is kept.
   */
  function Universal(s: string): (t: string)
    ensures forall i :: 0 <= i < |t| ==> t[i] != '\r'
    ensures |t| <= |s|
    decreases |s|
  {
    if |s| == 0 then ""
    else if s[0] != '\r' then [s[0]] + Universal(s[1..])
    else if |s| > 1 && s[1] == '\n' then "\n" + Universal(s[2..])
    else "\n" + Universal(s[1..])
  }

  /** A carriage-return-free prefix passes through the translation unchanged. */
  lemma {:induction false} UniversalKeepsPrefix(a: string, rest: string)
    requires forall i :: 0 <= i < |a| ==> a[i] != '\r'
    ensures Universal(a + rest) == a + Universal(rest)
    decreases |a|
  {
    if |a| > 0 {
      var s := a + rest;
      assert s[0] == a[0] && s[1..] == a[1..] + rest;
      calc {
        Universal(a + rest);
        [a[0]] + Universal(a[1..] + rest);
        { UniversalKeepsPrefix(a[1..], rest); }
        [a[0]] + (a[1..] + Universal(rest));
        { assert a == [a[0]] + a[1..]; }
        a + Universal(rest);
      }
    } else {
      assert a + rest == rest;
    }
  }

  /** Text without carriage returns is left alone, so translating twice is translating once. */
  lemma UniversalCrFree(s: string)
    requires forall i :: 0 <= i < |s| ==> s[i] != '\r'
    ensures Universal(s) == s
  {
    UniversalKeepsPrefix(s, "");
    assert s + "" == s;
  }

  /** The translation of a text that starts with a line break. */
  lemma UniversalHeads(b: string)
    requires |b| == 0 || b[0] != '\n'
    ensures Universal("\r\n" + b) == "\n" + Universal(b)
    ensures Universal("\r" + b) == "\n" + Universal(b)
    ensures Universal("\n" + b) == "\n" + Universal(b)
  {
    var crlf, cr, lf := "\r\n" + b, "\r" + b, "\n" + b;
    assert crlf[0] == '\r' && crlf[1] == '\n' && crlf[2..] == b;
    assert cr[0] == '\r' && cr[1..] == b;
    assert lf[0] == '\n' && lf[1..] == b;
  }

  /** A line break in any of the three spellings becomes one "\n" of the translated text. */
  lemma UniversalBreak(a: string, brk: string, b: string)
    requires forall i :: 0 <= i < |a| ==> a[i] != '\r'
    requires brk == "\r\n" || brk == "\r" || brk == "\n"
    requires |b| == 0 || b[0] != '\n'
    ensures Universal(a + brk + b) == a + "\n" + Universal(b)
  {
    calc {
      Universal(a + brk + b);
      { assert a + brk + b == a + (brk + b); }
      Universal(a + (brk + b));
      { UniversalKeepsPrefix(a, brk + b); }
      a + Universal(brk + b);
      { UniversalHeads(b); }
      a + ("\n" + Universal(b));
      { assert a + ("\n" + Universal(b)) == a + "\n" + Universal(b); }
      a + "\n" + Universal(b);
    }
  }

  /** `readlines()` on a file opened in text mode: the lines of the newline-translated text. */
  function TextModeLines(s: string): seq<string> {
    ReadLines(Universal(s))
  }
}

=== FILE: unlock_specie.dfy ===
/**
 * The `/unlock_specie` command: a capitalised species name enters the
 * temporary-unlock registry, unless it is already there, and the unlock
 * routine of the roster is started for it.
 */
module UnlockSpecie {
  import opened Wrappers
  import opened Text
  import DinoRoster

  datatype Reply = Reply(text: string, ephemeral: bool)

  /** The registry afterwards, the reply, and the name handed to the background unlock task, if one is started. */
  datatype UnlockOutcome = UnlockOutcome(unlocks: set<string>, reply: Reply, task: Option<string>)

  function UnlockedText(mention: string, name: string): string {
    "\U{1F513} **" + mention + " has unlocked " + name + " for everyone for two minutes!**"
  }

  function AlreadyUnlockedText(name: string): string {
    "\U{26A0}\U{FE0F} **" + name + " is already unlocked!**"
  }

  /**
   * `unlock`: the registry is consulted, not the caps table, so any name not
   * yet unlocked is inserted and a task started for it.
   */
  function Unlock(unlocks: set<string>, rawName: string, mention: string): (r: UnlockOutcome)
    ensures Capitalize(rawName) in unlocks ==>
              r == UnlockOutcome(unlocks, Reply(AlreadyUnlockedText(Capitalize(rawName)), true), None)
    ensures Capitalize(rawName) !in unlocks ==>
              r.unlocks == unlocks + {Capitalize(rawName)} && r.task == Some(Capitalize(rawName))
              && r.reply == Reply(UnlockedText(mention, Capitalize(rawName)), false)
    ensures r.unlocks - unlocks <= {Capitalize(rawName)} && unlocks <= r.unlocks
  {
    var name := Capitalize(rawName);
    if name !in unlocks then
      UnlockOutcome(unlocks + {name}, Reply(UnlockedText(mention, name), false), Some(name))
    else
      UnlockOutcome(unlocks, Reply(AlreadyUnlockedText(name), true), None)
  }

  /** The name is normalised before any check: a name and its capitalised form behave alike. */
  lemma CapitalisedFirst(unlocks: set<string>, rawName: string, mention: string)
    ensures Unlock(unlocks, Capitalize(rawName), mention) == Unlock(unlocks, rawName, mention)
  {
    CapitalizeIdempotent(rawName);
  }

  /**
   * A species of the caps table that was not unlocked goes through the whole
   * cycle (command, unlock task, disable) and leaves the registry as it found it.
   */
  lemma TableSpeciesUnlockRoundTrip(unlocks: set<string>, rawName: string, mention: string,
                                    pushConnected: bool, channelFound: bool)
    requires Capitalize(rawName) !in unlocks
    requires DinoRoster.CapOf(Capitalize(rawName)).Some?
    ensures var cmd := Unlock(unlocks, rawName, mention);
            var task := DinoRoster.UnlockDinoForTemp(cmd.unlocks, cmd.task.value, pushConnected);
            task.unlocked == cmd.task
            && DinoRoster.DisableUnlockedDino(task.unlocks, task.unlocked.value, channelFound).unlocks == unlocks
  {
    CapitalizeIdempotent(rawName);
  }

  /**
   * A name outside the caps table is inserted by the command, but the unlock
   * task returns at once and never schedules its removal: the name stays in
   * the registry and every later attempt is told it is already unlocked.
   */
  lemma UnknownNameStaysUnlocked(unlocks: set<string>, rawName: string, mention: string, pushConnected: bool,
                                 again: string, mention2: string)
    requires Capitalize(rawName) !in unlocks
    requires DinoRoster.CapOf(Capitalize(rawName)).None?
    requires Capitalize(again) == Capitalize(rawName)
    ensures var cmd := Unlock(unlocks, rawName, mention);
            var task := DinoRoster.UnlockDinoForTemp(cmd.unlocks, cmd.task.value, pushConnected);
            task.unlocked.None? && task.pushed == [] && Capitalize(rawName) in task.unlocks
            && Unlock(task.unlocks, again, mention2).task.None?
  {
    CapitalizeIdempotent(rawName);
  }
}

=== FILE: utf8.dfy ===
/**
 * UTF-8, the encoding `str.encode()` applies to the password and to the
 * command payload before they are framed.
 */
module Utf8 {
  import opened Wrappers

  type Byte = b: int | 0 <= b < 0x100

  /** The one to four bytes that encode a Unicode scalar value. */
  function EncodeChar(c: char): (bs: seq<Byte>)
    ensures 1 <= |bs| <= 4
    ensures (0 in bs) <==> c == '\0'
    ensures |bs| > 1 ==> forall k :: 0 <= k < |bs| ==> bs[k] >= 0x80
  {
    var n := c as int;
    if n < 0x80 then [n]
    else if n < 0x800 then [0xC0 + n / 0x40, 0x80 + n % 0x40]
    else if n < 0x10000 then [0xE0 + n / 0x1000, 0x80 + (n / 0x40) % 0x40, 0x80 + n % 0x40]
    else [0xF0 + n / 0x40000, 0x80 + (n / 0x1000) % 0x40, 0x80 + (n / 0x40) % 0x40, 0x80 + n % 0x40]
  }

  predicate IsContinuation(b: Byte) {
    0x80 <= b < 0xC0
  }

  /** The code point spelled by one complete UTF-8 sequence, rejecting overlong forms and surrogates. */
  function DecodeChar(bs: seq<Byte>): Option<char> {
    if |bs| == 1 && bs[0] < 0x80 then
      Some(bs[0] as char)
    else if |bs| == 2 && 0xC0 <= bs[0] < 0xE0 && IsContinuation(bs[1]) then
      var n := (bs[0] as int - 0xC0) * 0x40 + (bs[1] as int - 0x80);
      if n < 0x80 then None else Some(n as char)
    else if |bs| == 3 && 0xE0 <= bs[0] < 0xF0 && IsContinuation(bs[1]) && IsContinuation(bs[2]) then
      var n := (bs[0] as int - 0xE0) * 0x1000 + (bs[1] as int - 0x80) * 0x40 + (bs[2] as int - 0x80);
      if n < 0x800 || (0xD800 <= n < 0xE000) then None else Some(n as char)
    else if |bs| == 4 && 0xF0 <= bs[0] < 0xF8 && IsContinuation(bs[1]) && IsContinuation(bs[2]) && IsContinuation(bs[3]) then
      var n := (bs[0] as int - 0xF0) * 0x40000 + (bs[1] as int - 0x80) * 0x1000 + (bs[2] as int - 0x80) * 0x40 + (bs[3] as int - 0x80);
      if n < 0x10000 || n >= 0x110000 then None else Some(n as char)
    else
      None
  }

  /** Decoding the encoding of a character gives the character back. */
  lemma DecodeEncodeChar(c: char)
    ensures DecodeChar(EncodeChar(c)) == Some(c)
  {
    var n := c as int;
    if n < 0x80 {
    } else if n < 0x800 {
      DecodeTwo(c);
    } else if n < 0x10000 {
      DecodeThree(c);
    } else {
      DecodeFour(c);
    }
  }

  lemma DecodeTwo(c: char)
    requires 0x80 <= c as int < 0x800
    ensures DecodeChar(EncodeChar(c)) == Some(c)
  {
    var n := c as int;
    var q, r := n / 0x40, n % 0x40;
    assert n == q * 0x40 + r;
    assert EncodeChar(c) == [0xC0 + q, 0x80 + r];
  }

  lemma DecodeThree(c: char)
    requires 0x800 <= c as int < 0x10000
    ensures DecodeChar(EncodeChar(c)) == Some(c)
  {
    var n := c as int;
    var a, m := n / 0x1000, (n / 0x40) % 0x40;
    var r := n % 0x40;
    assert n / 0x40 == a * 0x40 + m;
    assert n == (n / 0x40) * 0x40 + r;
    assert n == a * 0x1000 + m * 0x40 + r;
    assert EncodeChar(c) == [0xE0 + a, 0x80 + m, 0x80 + r];
  }

  lemma DecodeFour(c: char)
    requires 0x10000 <= c as int
    ensures DecodeChar(EncodeChar(c)) == Some(c)
  {
    var n := c as int;
    var a, b := n / 0x40000, (n / 0x1000) % 0x40;
    var m, r := (n / 0x40) % 0x40, n % 0x40;
    assert n / 0x1000 == a * 0x40 + b;
    assert n / 0x40 == (n / 0x1000) * 0x40 + m;
    assert n == (n / 0x40) * 0x40 + r;
    assert n == a * 0x40000 + b * 0x1000 + m * 0x40 + r;
    assert EncodeChar(c) == [0xF0 + a, 0x80 + b, 0x80 + m, 0x80 + r];
  }

  /** Python's `s.encode()`. */
  function Encode(s: string): (bs: seq<Byte>)
    ensures |bs| >= |s|
    ensures (0 in bs) <==> ('\0' in s)
  {
    if |s| == 0 then [] else EncodeChar(s[0]) + Encode(s[1..])
  }

  /** Text made of ASCII characters encodes to one byte per character, its code point. */
  lemma {:induction false} EncodeAscii(s: string)
    requires forall i :: 0 <= i < |s| ==> s[i] as int < 0x80
    ensures |Encode(s)| == |s|
    ensures forall i :: 0 <= i < |s| ==> Encode(s)[i] == s[i] as int
  {
    if |s| > 0 {
      EncodeAscii(s[1..]);
    }
  }
}

=== FILE: verify_paired.dfy ===
/**
 * `verify_paired`: whether a Discord user has a completed pairing, decided
 * from the rows the pairing table returns for that user.
 */
module VerifyPaired {
  import opened Wrappers

  /** A returned row: its `steam_id` (null is None) and its `status`. */
  datatype Row = Row(steamId: Option<string>, status: string)

  /** The query's result: the rows, or the text of the exception the datastore raised. */
  datatype Query = Rows(rows: seq<Row>) | DbError(text: string)

  /** The pair `(steam_id, error_message)` the function returns. */
  datatype Verdict = Verdict(steamId: Option<string>, error: Option<string>)

  const NotPairedText: string := "\U{26A0}\U{FE0F} You are not paired. Use `/pair` to link your account."
  const NotCompletedText: string := "\U{26A0}\U{FE0F} Your pairing is not completed. Try `/pair` again."

  function DbErrorText(e: string): string {
    "\U{274C} Database error:\n```" + e + "```"
  }

  function Verify(q: Query): (v: Verdict)
    ensures q.DbError? ==> v == Verdict(None, Some(DbErrorText(q.text)))
    ensures q.Rows? && |q.rows| == 0 ==> v == Verdict(None, Some(NotPairedText))
    ensures q.Rows? && |q.rows| > 0 && q.rows[0].status != "completed" ==> v == Verdict(None, Some(NotCompletedText))
    ensures q.Rows? && |q.rows| > 0 && q.rows[0].status == "completed" ==> v == Verdict(q.rows[0].steamId, None)
    ensures v.error.None? <==> q.Rows? && |q.rows| > 0 && q.rows[0].status == "completed"
  {
    match q
    case DbError(e) => Verdict(None, Some(DbErrorText(e)))
    case Rows(rows) =>
      if |rows| == 0 then Verdict(None, Some(NotPairedText))
      else if rows[0].status != "completed" then Verdict(None, Some(NotCompletedText))
      else Verdict(rows[0].steamId, None)
  }

  /** Only the first row is consulted: rows after it never change the verdict. */
  lemma FirstRowDecides(first: Row, rest1: seq<Row>, rest2: seq<Row>)
    ensures Verify(Rows([first] + rest1)) == Verify(Rows([first] + rest2))
  {
  }

  /** Either a Steam id or an error text comes back, never both. */
  lemma IdXorError(q: Query)
    ensures Verify(q).steamId.Some? ==> Verify(q).error.None?
    ensures Verify(q).error.Some? ==> Verify(q).steamId.None?
  {
  }
}

=== FILE: wrappers.dfy ===
/** The optional value used wherever the Python code returns `None` or a falsy result. */
module Wrappers {

  datatype Option<+T> = None | Some(value: T) {

    /** Returns the value held in Some, or `default` when None. */
    function GetOr(default: T): T {
      match this
      case Some(v) => v
      case None => default
    }
  }
}
